=== FILE: README.md ===
# qt-transifex, modelled in Dafny

qt-transifex keeps the translations of a Qt (QGIS) plugin in step with a
Transifex project. Its `push` command regenerates the source TS file with
`pylupdate5` and uploads it, creating the project and the resource on the
service when they are missing. Its `pull` command downloads the translated TS
file of every selected language that is translated well enough, and can then
compile them with `lrelease`. `compile` only compiles, and `list` prints the
project's languages with their translation ratio, highest first.

The model follows the program's structure, one module per concern:

- `Text`: the Python string operations the program relies on. It covers `str`
  ordering and `sorted` on a set, `split`/`join`, `partition`, and decimal
  `str(int)`.
- `Paths`: `pathlib` paths over an abstract local filesystem. A `Local` holds a
  map from file path to text plus a set of directories. It models `joinpath`,
  `mkdir(parents=True, exist_ok=True)`, file writes, and the two glob shapes
  the program uses.
- `Results`: `Option`, the program's errors with their messages, and `Result`.
  Every exception becomes an `Err`.
- `Settings`: configuration (`parameters.py`). It finds the configuration file,
  selects the `qt-transifex` table, applies the defaults, reads the metadata
  file, and validates into a `Parameters` record.
- `Client`: the Transifex adapter (`client.py`) over an abstract service state
  `Remote`. A Remote maps organizations to projects to resources, each with its
  languages, statistics and translations.
- `Workflow`: the `Translation` class (`translation.py`). Every operation maps a
  `World` (the service plus the local filesystem) to an `Outcome`. An Outcome
  holds the result, the new world and the ordered trace of the calls made.
  `pylupdate5` and `lrelease` are oracles given as a `ToolRun`: exit code,
  captured output and the files the tool writes.
- `Cli`: the commands of `main.py`, the verbosity switch, and how an error
  becomes the exit status.

## Model

| member | source | states |
|---|---|---|
| `Text.SortSet` | qt_transifex/translation.py:88 | `sorted` of a set of language codes holds each code exactly once, in strictly ascending code-point order |
| `Text.Partition` | qt_transifex/client.py:88 | `partition` splits at the first occurrence of the separator; the three pieces concatenate back to the input, and when there is no occurrence the separator and tail are empty |
| `Text.SplitJoin` | qt_transifex/translation.py:119-120 | joining paths with a separator and splitting again gives the paths back when no path contains the separator |
| `Text.JoinSplit` | qt_transifex/parameters.py:29 | joining the comma-split pieces of a string with commas restores the string |
| `Paths.ParsePath` | qt_transifex/parameters.py:98 | a configured path is absolute exactly when it starts with `/`; its components are non-empty, not `.`, and free of `/` |
| `Paths.ParsePathRender` | qt_transifex/parameters.py:98 | rendering an absolute path and parsing the text again gives the same absolute path back |
| `Paths.ParsePathRelative` | qt_transifex/parameters.py:98 | components joined with `/` parse back as the relative path with those components |
| `Paths.AddDirs` | qt_transifex/translation.py:86 | the directories that an unobstructed `mkdir(parents=True, exist_ok=True)` leaves: the directory exists, everything that existed still exists, files are untouched, and only the directory and its ancestors are new |
| `Paths.GlobDeep` | qt_transifex/translation.py:109-110 | the recursive glob lists exactly the existing paths strictly below the plugin directory with the extension, each once, in ascending order |
| `Paths.GlobChildren` | qt_transifex/translation.py:156 | the `i18n/*.ts` glob lists exactly the existing `.ts` entries directly inside the i18n directory, each once, in ascending order |
| `Results.MessageNamesSubject` | qt_transifex/translation.py:57-60 | every `TranslationError` message names what it is about: the organization, project, resource, file, directory or tool |
| `Results.ToolFailedMessage` | qt_transifex/translation.py:137-142 | a failed-tool message names the tool, carries the decimal return code, and ends with the tool's stdout followed by its stderr |
| `Settings.ParseStrSequence` | qt_transifex/parameters.py:26-30 | a sequence passes unchanged; the empty string gives no items; otherwise there is one item more than there are commas, no item holds a comma, and the items joined by commas restore the string |
| `Settings.FindConfigFile` | qt_transifex/parameters.py:101-112 | the first existing candidate wins, in the order `pyproject.toml`, `qt-transifex.toml`, `.qt-transifex.toml`; there is no result exactly when none exists |
| `Settings.ReadConfig` | qt_transifex/parameters.py:115-122 | a `pyproject` file is read under `tool`, any other file at its top level; a missing `tool` or `qt-transifex` entry reads as an empty table; a `tool` entry that is not a table fails at the lookup inside it; an unreadable file is an error |
| `Settings.AsTable` | qt_transifex/parameters.py:121-122 | a value can be looked into exactly when it is a table, and then its entries are the table's; anything else fails naming the key |
| `Settings.ConfigSection` | qt_transifex/parameters.py:128-132 | no configuration file is `FileNotFoundError`; a read error is passed on; a `qt-transifex` entry that is not a table fails where `config.update` is called on it; otherwise it is the table read |
| `Settings.WithDefaults` | qt_transifex/parameters.py:131-145 | the root directory is set; an empty `resource` falls back to `project`; a missing `plugin_source` is a `KeyError`; an empty `repository_url` is read from the metadata file; every other key is kept |
| `Settings.IniGet` | qt_transifex/parameters.py:145 | `ConfigParser.get` fails without the section; an option of the section is returned; a missing option is found exactly when the `DEFAULT` section has it, and then it is the default's value, else it is a missing-option error |
| `Settings.Validate` | qt_transifex/parameters.py:33-94 | validation succeeds exactly when there is no unknown key and every field validates; a failure reports exactly the unknown keys and the failing fields; on success each field holds the configured value (`source_lang` defaulting to `en`, `selected_languages` to none, each executable to the one found on the search path), both executables are existing files, the URL is http(s), and the ratio is the configured number in [0, 100] or none |
| `Settings.Failing` | qt_transifex/parameters.py:33-94 | the set of failing fields is empty exactly when every field validated, and holds field names only |
| `Settings.PluginPath` | qt_transifex/parameters.py:96-98 | a relative plugin source is the root directory followed by its components; an absolute one replaces the root |
| `Settings.LoadParameters` | qt_transifex/parameters.py:125-147 | no configuration file gives `FileNotFoundError` and a bad section fails as read; loading succeeds exactly when the section reads, the defaults apply, no key is unknown and every field validates; loaded parameters carry the given root (else the working directory) and a ratio in [0, 100] |
| `Settings.LoadParametersDefaults` | qt_transifex/parameters.py:134-145 | loaded parameters keep the file's project; the resource is the file's resource or else the project; the URL is the file's or else the metadata file's; the plugin path is the plugin source below the root |
| `Settings.CandidateStems` | qt_transifex/parameters.py:120 | of the three candidate files only `pyproject.toml` has the stem `pyproject` |
| `Client.Connect` | qt_transifex/client.py:96-102 | connecting succeeds exactly when the organization exists; otherwise it raises the "not registered" `TranslationError` |
| `Client.FindProject` | qt_transifex/client.py:104-108 | a missing project is `None`, not an error; a present one is returned as stored |
| `Client.FindResource` | qt_transifex/client.py:58-62 | a missing resource is `None`, not an error; a present one is returned as stored |
| `Client.CreateProject` | qt_transifex/client.py:110-131 | an unknown source language fails first; a public project without a URL is refused; otherwise the new project is public or private as asked, named and slugged by the name, empty, and the only change to the service |
| `Client.CreateResource` | qt_transifex/client.py:64-72 | the new resource has the name as name and slug, the QT format and no content; it is added to that project only |
| `Client.Upload` | qt_transifex/client.py:46-51 | an upload replaces the resource's source text and changes nothing else on the service |
| `Client.Ratio` | qt_transifex/client.py:89 | the ratio is 0 without strings, otherwise 100 times translated over total; it lies in [0, 100] when no more strings are translated than exist, and is 100 exactly when all are |
| `Client.StatCode` | qt_transifex/client.py:88 | a statistics id yields the text after its first `:l:`, or nothing when it has none |
| `Client.StatCodeOf` | qt_transifex/client.py:88 | an id built as prefix, `:l:`, code yields the code back when the prefix does not already hold the separator |
| `Client.StatOf` | qt_transifex/client.py:87-90 | one reported entry: the id's language code, the total, and the percentage of translated strings (`Client.Ratio`: 0 for an empty resource), which lies within [0, 100] |
| `Client.LanguageStats` | qt_transifex/client.py:80-90 | a missing resource yields nothing; otherwise one entry per statistics record, in the service's order |
| `Client.ChooseEncoding` | qt_transifex/client.py:40-41 | a reported encoding is kept; a missing or empty one becomes `utf-8`; the result is never empty |
| `Workflow.TsNameRoundTrip` | qt_transifex/translation.py:89 | the language is recovered from the TS file name `<resource>_<lang>.ts` |
| `Workflow.TargetDistinct` | qt_transifex/translation.py:88-91 | two different languages never download to the same TS file |
| `Workflow.TranslationFilePath` | qt_transifex/translation.py:22-27 | the source TS file sits directly in `<plugin>/i18n` and its name encodes the source language |
| `Workflow.Construct` | qt_transifex/translation.py:29-62 | a missing organization fails at once; an existing project binds without changes; a missing one is created (public, with the repository URL) only when asked, else it is a "Failed to get project" error; when asked, binding succeeds exactly when the creation does, a failed creation's error is returned, and the service afterwards is the one the creation leaves; the bound translation carries the configured organization, project, resource, plugin path, TS path and threshold; nothing is written locally, and a failure changes nothing |
| `Workflow.PullSet` | qt_transifex/translation.py:72-82 | a language is kept exactly when it is a project language, among the selection when there is one, and has a statistics entry reaching the threshold when one is set |
| `Workflow.PullLanguages` | qt_transifex/translation.py:72-88 | the languages are downloaded in ascending order, each once, and they are exactly the eligible ones |
| `Workflow.MakeDirs` | qt_transifex/translation.py:86 | `mkdir(parents=True, exist_ok=True)` succeeds exactly when no file is in the way; a file at an ancestor is `NotADirectoryError`, else a file at the directory itself is `FileExistsError`; on success only the directory and its ancestors are added |
| `Workflow.WriteText` | qt_transifex/client.py:44 | writing a file fails exactly when the path is a directory (`IsADirectoryError`); otherwise that file holds the text and nothing else changes |
| `Workflow.FirstBlocked` | qt_transifex/translation.py:88-91 | the index of the first language, in download order, whose TS file path is a directory: every earlier one is writable |
| `Workflow.FirstBlockedAfterMkdir` | qt_transifex/translation.py:86-91 | making the i18n directory never turns a TS file path into a directory, so it does not move the first failing download |
| `Workflow.DownloadAll` | qt_transifex/translation.py:88-91 | downloads run in order and stop at the first TS file path that is a directory, with `IsADirectoryError` for it; the languages before it are written with their translation; directories and every other file are as they were |
| `Workflow.DiskBlockedFirst` | qt_transifex/translation.py:86-91 | the disk side of a pull fails exactly when the directory cannot be made or the first blocked download exists |
| `Workflow.PullDisk` | qt_transifex/translation.py:84-91 | the disk side of a pull succeeds exactly when nothing is in the way; a failing `mkdir` changes nothing; otherwise it makes the i18n directory, writes the languages before the first blocked one, fails on that one if any, and leaves every other file alone |
| `Workflow.DownloadsAfterMkdir` | qt_transifex/translation.py:86-91 | downloading into the freshly made directory writes exactly the languages before the first blocked one of the original filesystem |
| `Workflow.TargetsDoNotBlock` | qt_transifex/translation.py:86-91 | a pull's writes never put a file where the i18n directory or its ancestors must be |
| `Workflow.PullDiskIdempotent` | qt_transifex/translation.py:84-91 | doing the disk side of a pull twice leaves the same filesystem as doing it once |
| `Workflow.Pull` | qt_transifex/translation.py:64-91 | a missing resource fails at once with no other call; otherwise the pull succeeds exactly when neither the directory nor a TS file is blocked; a failing `mkdir` changes nothing and makes only reads; otherwise the files written and the trace are those of the languages before the first blocked one, which is the error; it never changes the service; on success every pulled language is written and downloaded in order after the directory is made |
| `Workflow.PullIdempotent` | qt_transifex/translation.py:64-91 | pulling a second time leaves the same world as pulling once, since downloads overwrite |
| `Workflow.ThresholdMonotone` | qt_transifex/translation.py:78-82 | raising the minimum ratio never adds a language to the pull |
| `Workflow.Push` | qt_transifex/translation.py:93-102 | a missing source file fails before any call; otherwise the resource is created exactly when missing and the file's text is uploaded once, last; local files are untouched, nothing on the service is deleted, and other resources are unchanged |
| `Workflow.PushFrame` | qt_transifex/translation.py:93-102 | push changes only the bound resource: the language catalog, every other organization and project, and every other field of the bound project stay as they were; an existing resource changes only its source text, and a created one is a QT resource with no statistics or translations holding the uploaded text |
| `Workflow.EnsureResourceFrame` | qt_transifex/translation.py:99-101 | fetching or creating the resource changes only the bound project's resources, and a created resource is an empty QT resource named after the TS file |
| `Workflow.ProFileLines` | qt_transifex/translation.py:118-126 | the project file reads back line by line as the codec, the sources, the forms and the TS file, and the source and form lists split back into the globbed paths when no path holds a space |
| `Workflow.SpacedPathMisread` | qt_transifex/translation.py:119-120 | a path holding a space does not survive the space-joined source list: splitting the list does not give the paths back |
| `Workflow.LinesJoin` | qt_transifex/translation.py:121-126 | newline-terminated lines are the lines joined by newlines with an empty last piece |
| `Workflow.UpdateStrings` | qt_transifex/translation.py:104-149 | a failing `mkdir` of the i18n directory changes nothing; a project file path that is a directory fails after the directory is made; otherwise the project file is written, pylupdate5 runs with `-noobsolete -verbose`, and the tool's files are in place; a non-zero code is a pylupdate5 failure; with code 0 it succeeds exactly when the TS file then exists; the service is untouched |
| `Workflow.UpdateCalls` | qt_transifex/translation.py:116-136 | the calls of `update_strings`: none when `mkdir` fails; the directory creation alone when the project file cannot be opened; otherwise the directory, the project file and one pylupdate5 run, in that order |
| `Workflow.UpdateRunsTool` | qt_transifex/translation.py:116-136 | pylupdate5 runs exactly when neither the i18n directory nor the project file is blocked |
| `Workflow.ProjectFileOutsideI18n` | qt_transifex/translation.py:112-116 | the project file is never the i18n directory or one of its ancestors, so making that directory cannot block it |
| `Workflow.CompileStrings` | qt_transifex/translation.py:151-172 | no TS file means an error and no run; otherwise lrelease runs once; it succeeds exactly on exit code 0 and never touches the service |
| `Workflow.CompiledFiles` | qt_transifex/translation.py:156-163 | lrelease receives the TS files directly in the i18n directory, each once, in ascending order; "no TS files" happens exactly when there is none |
| `Cli.LevelFor` | qt_transifex/main.py:18-25 | no `-v` means WARNING, one means INFO, two or more mean DEBUG |
| `Cli.VerbosityMonotone` | qt_transifex/logger.py:9-16 | more `-v` flags never raise the logging threshold |
| `Cli.PushWith` | qt_transifex/main.py:47-53 | once bound, pylupdate5 runs exactly when the i18n directory and the project file can be written; a dry run uploads nothing; a successful push uploads exactly when it is not a dry run, and only after the source file was regenerated |
| `Cli.PushWithResult` | qt_transifex/main.py:48-53 | a binding failure is returned with the world unchanged; once bound, a failed update or a dry run returns the update's result and disk (the regenerated project and TS files), and otherwise the result and world of `Translation.push()` |
| `Cli.PushWithTrace` | qt_transifex/main.py:47-51 | once bound and with the strings updated, a push that is not a dry run calls `Translation.push()` last and returns its result and service state; when the TS file is on disk, the push succeeds and the service's resource holds that file's text |
| `Cli.UpdateTrace` | qt_transifex/translation.py:104-149 | regenerating the source file never uploads |
| `Cli.PushCommand` | qt_transifex/main.py:35-53 | a configuration failure ends the command with no call and no change; otherwise it is the push on the loaded parameters |
| `Cli.PullWith` | qt_transifex/main.py:69-77 | `pull` never changes the service and its trace holds no create or upload |
| `Cli.PullWithResult` | qt_transifex/main.py:74-77 | a binding failure is returned with the world unchanged; once bound, a failed pull or a pull without `--compile` returns the pull's result and disk, and a successful pull with `--compile` returns the compile step's |
| `Cli.PullCompilesLast` | qt_transifex/main.py:74-77 | lrelease runs only after the pull made the i18n directory, and never without `--compile` |
| `Cli.PullSelection` | qt_transifex/main.py:71-75 | every downloaded language is eligible among the `--lang` values, or among the configured languages when none is given; when the resource exists and the disk is not in the way, the downloaded languages are exactly the eligible ones |
| `Cli.PullCallsShape` | qt_transifex/translation.py:64-91 | a pull's trace has no service change and no tool run and downloads only pulled languages; a missing resource downloads nothing; on success it makes the directory and downloads exactly the pulled languages |
| `Cli.PullCommand` | qt_transifex/main.py:56-77 | a configuration failure ends the command with no call; the service is never changed |
| `Cli.CompileCommand` | qt_transifex/main.py:80-86 | `compile` only ever runs lrelease and never touches the service |
| `Cli.StatsTable` | qt_transifex/main.py:107 | the table has an entry for every reported code, and the last report for a code wins |
| `Cli.Rows` | qt_transifex/main.py:108-109 | every project language gets its statistics, in the service's order; a language without statistics is a `KeyError` for its code |
| `Cli.SortByRatio` | qt_transifex/main.py:108-112 | the rows are sorted by descending ratio as a permutation of the input, and rows with equal ratios keep their relative order |
| `Cli.ListWith` | qt_transifex/main.py:102-112 | a missing organization or project is an error; for an existing project the listing succeeds exactly when every language has statistics, a missing one's error is returned, and otherwise the listing is the stable descending-ratio permutation of the project's rows |
| `Cli.ListCommand` | qt_transifex/main.py:89-112 | a configuration failure is reported as is; the printed rows never increase in ratio |
| `Cli.ExitFor` | qt_transifex/main.py:135-142 | success exits 0; a `TranslationError` exits with an `ERROR: ` report; any other error escapes uncaught |
| `Cli.ExitStatus` | qt_transifex/main.py:135-142 | the status is 0 exactly on success; a `TranslationError` gives status 1 and a report that names its subject |

## Left out

- The network, the Transifex API library and authentication are left out: the service is the abstract `Remote`. The token options, including the different environment variable `list` reads it from, are not modelled.
- Transport failures, timeouts and the service's own validation are left out. A `DoesNotExist` that the adapter does not catch becomes `RemoteNotFound`.
- TOML and INI parsing are left out: the parsed documents are given in `Host`. A configuration file that exists but is not in `Host.toml` reads as `Unreadable`.
- The `HttpUrl` grammar and normalisation are reduced to "starts with `http://` or `https://` followed by something", and the URL is kept as written.
- Settings.Validate: pydantic's coercions (integers and numeric strings as floats, `~` in paths) are not modelled; a boolean ratio reads as 0 or 1.
- Floating point is modelled as exact `real` arithmetic, so `Client.Ratio` has no rounding.
- Glob order is modelled as ascending path text. Python's glob order depends on the filesystem; lrelease and pylupdate5 do not depend on it.
- File names containing `/` and symbolic links are not modelled.
- `Project.resources()` and `Project.add_languages()` (client.py:74-75 and 92-93) are not modelled: no command calls them.
- `Resource.upload()` (client.py:20-24) is the same upload as `update()` and is modelled once, as `Client.Upload`.
- A project language that the service's language catalogue does not know is not modelled for downloads; downloading then writes the translation, or the empty text when there is none.
- Logging output and the `click` layer are left out: option parsing, `--version`, the colour of messages, and the dry-run notice.
- The JSON and text rendering of `list` is left out. The model stops at the ordered rows.
- `NoChangeLog` (main.py:31-32, 138-139) is never raised by the modelled code and is left out.
- The branch "Failed to create project" (translation.py:56-57) cannot be reached: `create_project` returns a project or raises. Its error `ProjectCreateFailed` is kept with its message, but no operation produces it.
- Client.StatCodeOf: the `partition` rule is stated for ids whose prefix does not already contain the separator; an id with `:l:` earlier yields the text after that first occurrence, as `Client.StatCode` states.
- Cli.PullWith: states that the service is unchanged and that nothing is created or uploaded; its result and disk are stated by `Cli.PullWithResult`, the selection and the ordering by `Cli.PullSelection` and `Cli.PullCompilesLast`.
- Cli.CompileCommand: states the trace and the service; the compile result itself is `Workflow.CompileStrings`.
- Cli.PushWith: the number and order of service calls inside `Workflow.Push` are stated there, not repeated here; that the push is made is stated by `Cli.PushWithTrace`, and the result and disk on every path by `Cli.PushWithResult`.
- Settings.IniGet: ConfigParser's `%` interpolation is not modelled (a lone `%` raising `InterpolationSyntaxError`, `%%` reading as `%`, `%(name)s` substitution); the option's raw text is returned.
- Workflow.Pull: a download that fails on the network is not modelled, only one that fails on the disk. The trace leaves out the service calls made for the language whose file could not be written.
- Workflow.UpdateStrings: the files pylupdate5 writes are given by the `ToolRun` and always land; the tool's own write failures show only through its exit code.
- Settings.Validate: an executable is stated as the path resolved against the working directory, and the tools are run by that path. Pydantic keeps a relative path as written, and `subprocess.run` looks a bare name (the `pylupdate5` or `lrelease` default when `shutil.which` finds nothing) up on `PATH`, not in the working directory; that search and the `FileNotFoundError` it can end in are not modelled.
- Client.ChooseEncoding: byte decoding is not modelled. Texts are strings, so `Client.DownloadText` writes the stored text whatever the encoding, and `ChooseEncoding` is a stand-alone decision that feeds nothing.
- Workflow.ProFileLines: the read-back is stated only for paths without spaces; `Workflow.SpacedPathMisread` shows that other paths do not survive it.
- Permission errors, full disks, partial writes and concurrent changes to the local filesystem are not modelled.

## Notes on the code

The model follows the code as written in each of these places.

- client.py:37-41: the comment says the text is always decoded as UTF-8, but
  the code sets `utf-8` only when the reported encoding is missing or empty.
  `Client.ChooseEncoding` keeps a reported encoding.
- parameters.py:26-30 and 77: `_parse_str_sequence` would accept a
  comma-separated string, but no validator calls it, and the field's
  `Sequence[str]` type refuses a plain string. `Settings.Validate` therefore
  rejects a string, and `Settings.ParseStrSequence` models the unused helper
  on its own.
- main.py:48-51: `push --dry-run` still constructs the translation with
  `create_project=True`. It can therefore create the project on the service
  even though it uploads nothing. `Cli.PushWith` keeps this.
- main.py:109: `list` reads the statistics with `stats[lang.code]`. A project
  language without statistics is an uncaught `KeyError`, modelled as
  `MissingKey`, not an empty row.

=== FILE: cli.dfy ===
/*
  The command line: the verbosity switch, the `push`, `pull`, `compile` and
  `list` commands, and how an error becomes an exit status.

  Every command first loads the parameters from the working directory; a
  failure there ends the command before any other call.
*/
module Cli {
  import opened Text
  import opened Paths
  import opened Results
  import opened Settings
  import opened Client
  import opened Workflow

  /* ---------------------------------------------------------------------- */
  /* Verbosity                                                              */
  /* ---------------------------------------------------------------------- */

  datatype LogLevel = Debug | Info | Warning
  {
    /** The numeric level of the `logging` module: messages below it are dropped. */
    function Value(): nat
    {
      match this
      case Debug => 10
      case Info => 20
      case Warning => 30
    }
  }

  /** The level set for `-v` given `verbose` times. */
  function LevelFor(verbose: nat): (l: LogLevel)
    ensures verbose == 0 <==> l == Warning
    ensures verbose == 1 <==> l == Info
    ensures verbose >= 2 <==> l == Debug
  {
    if verbose == 0 then Warning else if verbose == 1 then Info else Debug
  }

  /** More `-v` flags never hide a message that fewer flags show. */
  lemma VerbosityMonotone(fewer: nat, more: nat)
    requires fewer <= more
    ensures LevelFor(more).Value() <= LevelFor(fewer).Value()
  {
  }

  /* ---------------------------------------------------------------------- */
  /* Traces                                                                 */
  /* ---------------------------------------------------------------------- */

  predicate HasUpload(trace: seq<Effect>)
  {
    exists i | 0 <= i < |trace| :: trace[i].Uploaded?
  }

  /** The languages downloaded along a trace. */
  function DownloadedLanguages(trace: seq<Effect>): set<string>
  {
    set i | 0 <= i < |trace| && trace[i].Downloaded? :: trace[i].lang
  }

  lemma HasUploadConcat(a: seq<Effect>, b: seq<Effect>)
    ensures HasUpload(a + b) <==> HasUpload(a) || HasUpload(b)
  {
    if HasUpload(b) {
      var i :| 0 <= i < |b| && b[i].Uploaded?;
      assert (a + b)[|a| + i].Uploaded?;
    }
    if HasUpload(a) {
      var i :| 0 <= i < |a| && a[i].Uploaded?;
      assert (a + b)[i].Uploaded?;
    }
    if HasUpload(a + b) {
      var i :| 0 <= i < |a + b| && (a + b)[i].Uploaded?;
      if i < |a| { assert a[i].Uploaded?; } else { assert b[i - |a|].Uploaded?; }
    }
  }

  lemma DownloadedConcat(a: seq<Effect>, b: seq<Effect>)
    ensures DownloadedLanguages(a + b) == DownloadedLanguages(a) + DownloadedLanguages(b)
  {
    forall x | x in DownloadedLanguages(a + b) ensures x in DownloadedLanguages(a) + DownloadedLanguages(b) {
      var i :| 0 <= i < |a + b| && (a + b)[i].Downloaded? && (a + b)[i].lang == x;
      if i < |a| { assert a[i] == (a + b)[i]; } else { assert b[i - |a|] == (a + b)[i]; }
    }
    forall x | x in DownloadedLanguages(b) ensures x in DownloadedLanguages(a + b) {
      var i :| 0 <= i < |b| && b[i].Downloaded? && b[i].lang == x;
      assert (a + b)[|a| + i] == b[i];
    }
    forall x | x in DownloadedLanguages(a) ensures x in DownloadedLanguages(a + b) {
      var i :| 0 <= i < |a| && a[i].Downloaded? && a[i].lang == x;
      assert (a + b)[i] == a[i];
    }
  }

  /** No call of the trace changes what the service holds. */
  predicate Quiet(trace: seq<Effect>)
  {
    forall i | 0 <= i < |trace| :: !trace[i].ChangesService()
  }

  lemma QuietConcat(a: seq<Effect>, b: seq<Effect>)
    requires Quiet(a) && Quiet(b)
    ensures Quiet(a + b)
  {
    forall i | 0 <= i < |a + b| ensures !(a + b)[i].ChangesService() {
      if i < |a| { assert (a + b)[i] == a[i]; } else { assert (a + b)[i] == b[i - |a|]; }
    }
  }

  /** Every tool run of the trace comes after some directory creation. */
  predicate RunsAfterDirs(trace: seq<Effect>)
  {
    forall i | 0 <= i < |trace| && trace[i].Ran? :: exists k | 0 <= k < i :: trace[k].DirsMade?
  }

  predicate NoRuns(trace: seq<Effect>)
  {
    forall i | 0 <= i < |trace| :: !trace[i].Ran?
  }

  lemma RunsAfterDirsConcat(a: seq<Effect>, b: seq<Effect>, c: seq<Effect>)
    requires NoRuns(a) && NoRuns(b)
    requires exists k | 0 <= k < |b| :: b[k].DirsMade?
    ensures RunsAfterDirs(a + b + c)
  {
    var k :| 0 <= k < |b| && b[k].DirsMade?;
    var t := a + b + c;
    assert t[|a| + k] == b[k];
    forall i | 0 <= i < |t| && t[i].Ran? ensures exists j | 0 <= j < i :: t[j].DirsMade? {
      if i >= |a| + |b| { assert t[|a| + k].DirsMade?; }
    }
  }

  /* ---------------------------------------------------------------------- */
  /* push                                                                   */
  /* ---------------------------------------------------------------------- */

  lemma ConstructNoUpload(p: Parameters, createProject: bool, w: World)
    ensures !HasUpload(Construct(p, createProject, w).trace)
  {
    var t := Construct(p, createProject, w).trace;
    forall i | 0 <= i < |t| ensures !t[i].Uploaded? {
      assert t[i].ReadOnly() || t[i] == ProjectCreated(p.project);
    }
  }

  lemma UpdateTrace(p: Parameters, l: Local)
    ensures !HasUpload(UpdateCalls(p, l))
  {
    var t := UpdateCalls(p, l);
    assert |t| <= 3;
    forall i | 0 <= i < |t| ensures !t[i].Uploaded? {
      if i == 2 { assert t[i] == Ran(UpdateCommand(p)); }
      else { assert t[i].DirsMade? || t[i].FileWritten?; }
    }
  }

  /** `Translation.push()` runs no tool. */
  lemma PushNoRuns(t: Translation, w: World)
    requires Bound(t, w.remote)
    ensures NoRuns(Push(t, w).trace)
  {
    var calls := EnsureCalls(t, w.remote);
    var o := Push(t, w);
    if w.local.Exists(t.tsPath) && t.tsPath in w.local.files {
      var text := w.local.files[t.tsPath];
      assert o.trace == calls + [Uploaded(t.tsName, text)];
      forall i | 0 <= i < |o.trace| ensures !o.trace[i].Ran? {
        if i < |calls| { assert o.trace[i] == calls[i]; }
      }
    }
  }

  lemma PushTrace(t: Translation, w: World)
    requires Bound(t, w.remote)
    ensures Push(t, w).result.Ok? ==> HasUpload(Push(t, w).trace)
  {
    var o := Push(t, w);
    if o.result.Ok? {
      assert o.trace[|o.trace| - 1].Uploaded?;
    }
  }

  /** `push` once the parameters are loaded: bind (creating the project if
      needed), regenerate the TS file, then upload it unless it is a dry run. */
  function PushWith(p: Parameters, w: World, dryRun: bool, tool: ToolRun): (o: Outcome<()>)
    ensures Construct(p, true, w).result.Ok? ==> (Ran(UpdateCommand(p)) in o.trace <==> UpdateRuns(p, w.local))
    ensures dryRun ==> !HasUpload(o.trace)
    ensures o.result.Ok? ==> (HasUpload(o.trace) <==> !dryRun)
    ensures o.result.Ok? ==> UpdateStrings(p, Construct(p, true, w).world, tool).result.Ok?
  {
    var c := Construct(p, true, w);
    ConstructNoUpload(p, true, w);
    if c.result.Err? then Outcome(Err(c.result.error), c.world, c.trace)
    else
      var u := UpdateStrings(p, c.world, tool);
      UpdateTrace(p, c.world.local);
      UpdateRunsTool(p, c.world.local);
      HasUploadConcat(c.trace, u.trace);
      var before := c.trace + u.trace;
      ConstructNoRuns(p, true, w);
      if u.result.Err? || dryRun then
        RunIn(c.trace, u.trace, [], UpdateCommand(p));
        Outcome(u.result, u.world, before)
      else
        var s := Push(c.result.value, u.world);
        PushTrace(c.result.value, u.world);
        PushNoRuns(c.result.value, u.world);
        HasUploadConcat(before, s.trace);
        RunIn(c.trace, u.trace, s.trace, UpdateCommand(p));
        Outcome(s.result, s.world, before + s.trace)
  }

  /** What `push` returns and leaves behind: a binding failure is returned
      with nothing changed; once bound, a failed update or a dry run returns
      the update's result and disk, and otherwise `Translation.push()`'s. */
  lemma PushWithResult(p: Parameters, w: World, dryRun: bool, tool: ToolRun)
    ensures var c := Construct(p, true, w);
      c.result.Err? ==> PushWith(p, w, dryRun, tool) == Outcome(Err(c.result.error), w, c.trace)
    ensures var c := Construct(p, true, w);
      c.result.Ok? ==>
        var u := UpdateStrings(p, c.world, tool);
        var o := PushWith(p, w, dryRun, tool);
        && (u.result.Err? || dryRun ==> o == Outcome(u.result, u.world, c.trace + u.trace))
        && (u.result.Ok? && !dryRun ==>
              o.result == Push(c.result.value, u.world).result && o.world == Push(c.result.value, u.world).world)
  {
    var c := Construct(p, true, w);
    if c.result.Ok? {
      var u := UpdateStrings(p, c.world, tool);
      var o := PushWith(p, w, dryRun, tool);
      if u.result.Err? || dryRun {
        assert o == Outcome(u.result, u.world, c.trace + u.trace);
      }
    }
  }

  /** Construction runs no tool. */
  lemma ConstructNoRuns(p: Parameters, createProject: bool, w: World)
    ensures NoRuns(Construct(p, createProject, w).trace)
  {
    var t := Construct(p, createProject, w).trace;
    forall i | 0 <= i < |t| ensures !t[i].Ran? {
      assert t[i].ReadOnly() || t[i] == ProjectCreated(p.project);
    }
  }

  /** A tool run lies in a trace framed by two run-free traces exactly when it
      lies in the middle one. */
  lemma RunIn(a: seq<Effect>, b: seq<Effect>, c: seq<Effect>, argv: seq<string>)
    requires NoRuns(a) && NoRuns(c)
    ensures Ran(argv) in a + b + c <==> Ran(argv) in b
    ensures Ran(argv) in a + b <==> Ran(argv) in b
  {
  }

  /** `qt-transifex push [--dry-run]`. */
  function PushCommand(w: World, host: Host, dryRun: bool, tool: ToolRun): (o: Outcome<()>)
    ensures LoadParameters(None, w.local, host).Err? ==>
      o == Outcome(Err(LoadParameters(None, w.local, host).error), w, [])
    ensures LoadParameters(None, w.local, host).Ok? ==> o == PushWith(LoadParameters(None, w.local, host).value, w, dryRun, tool)
    ensures dryRun ==> !HasUpload(o.trace)
    ensures o.result.Ok? ==> (HasUpload(o.trace) <==> !dryRun)
  {
    match LoadParameters(None, w.local, host)
    case Err(e) => Outcome(Err(e), w, [])
    case Ok(p) => PushWith(p, w, dryRun, tool)
  }

  /* ---------------------------------------------------------------------- */
  /* pull                                                                   */
  /* ---------------------------------------------------------------------- */

  /** The `--lang` values, or the configured languages when none is given. */
  function Selection(lang: seq<string>, configured: seq<string>): seq<string>
  {
    if |lang| == 0 then configured else lang
  }

  /** Construction without project creation changes nothing and only reads. */
  lemma ConstructQuiet(p: Parameters, w: World)
    ensures Construct(p, false, w).world == w
    ensures forall i | 0 <= i < |Construct(p, false, w).trace| :: Construct(p, false, w).trace[i].ReadOnly()
    ensures DownloadedLanguages(Construct(p, false, w).trace) == {}
    ensures Quiet(Construct(p, false, w).trace) && NoRuns(Construct(p, false, w).trace)
  {
  }

  /** `pull` once the parameters are loaded: bind without creating, pull the
      selected languages, then compile if asked and the pull succeeded. */
  function PullWith(p: Parameters, w: World, compile: bool, lang: seq<string>, tool: ToolRun): (o: Outcome<()>)
    ensures o.world.remote == w.remote
    ensures Quiet(o.trace)
  {
    var c := Construct(p, false, w);
    ConstructQuiet(p, w);
    if c.result.Err? then Outcome(Err(c.result.error), w, c.trace)
    else
      var t := c.result.value;
      var pl := Pull(t, w, Selection(lang, p.selectedLanguages));
      PullQuiet(t, w, Selection(lang, p.selectedLanguages));
      QuietConcat(c.trace, pl.trace);
      var before := c.trace + pl.trace;
      if pl.result.Err? || !compile then Outcome(pl.result, pl.world, before)
      else
        var k := CompileStrings(p, pl.world, tool);
        CompileQuiet(p, pl.world, tool);
        QuietConcat(before, k.trace);
        Outcome(k.result, k.world, before + k.trace)
  }

  /** What `pull` returns and leaves behind: a binding failure is returned
      with nothing changed; once bound, a failed pull or a pull without
      `--compile` returns the pull's result and disk, and otherwise the
      compile step's. */
  lemma PullWithResult(p: Parameters, w: World, compile: bool, lang: seq<string>, tool: ToolRun)
    ensures var c := Construct(p, false, w);
      c.result.Err? ==> PullWith(p, w, compile, lang, tool) == Outcome(Err(c.result.error), w, c.trace)
    ensures var c := Construct(p, false, w);
      c.result.Ok? ==>
        var pl := Pull(c.result.value, w, Selection(lang, p.selectedLanguages));
        var o := PullWith(p, w, compile, lang, tool);
        && (pl.result.Err? || !compile ==> o.result == pl.result && o.world == pl.world)
        && (pl.result.Ok? && compile ==>
              o.result == CompileStrings(p, pl.world, tool).result && o.world == CompileStrings(p, pl.world, tool).world)
  {
  }

  lemma PullQuiet(t: Translation, w: World, selected: seq<string>)
    requires Bound(t, w.remote)
    ensures Quiet(Pull(t, w, selected).trace)
  {
    PullCallsShape(t, w, selected);
  }

  lemma CompileQuiet(p: Parameters, w: World, tool: ToolRun)
    ensures Quiet(CompileStrings(p, w, tool).trace)
  {
    var t := CompileStrings(p, w, tool).trace;
    forall i | 0 <= i < |t| ensures !t[i].ChangesService() { assert t[i].Ran?; }
  }

  /** lrelease runs only with `--compile`, and only after a pull that made the i18n directory. */
  lemma PullCompilesLast(p: Parameters, w: World, compile: bool, lang: seq<string>, tool: ToolRun)
    ensures RunsAfterDirs(PullWith(p, w, compile, lang, tool).trace)
    ensures !compile ==> NoRuns(PullWith(p, w, compile, lang, tool).trace)
  {
    var c := Construct(p, false, w);
    ConstructQuiet(p, w);
    var o := PullWith(p, w, compile, lang, tool);
    if c.result.Err? {
      NoRunsConcat(c.trace, []);
      assert o.trace == c.trace + [];
    } else {
      var t := c.result.value;
      var pl := Pull(t, w, Selection(lang, p.selectedLanguages));
      PullCallsShape(t, w, Selection(lang, p.selectedLanguages));
      NoRunsConcat(c.trace, pl.trace);
      if pl.result.Ok? && compile {
        var k := CompileStrings(p, pl.world, tool);
        assert o.trace == c.trace + pl.trace + k.trace;
        RunsAfterDirsConcat(c.trace, pl.trace, k.trace);
      } else {
        assert o.trace == c.trace + pl.trace;
      }
    }
  }

  lemma NoRunsConcat(a: seq<Effect>, b: seq<Effect>)
    requires NoRuns(a) && NoRuns(b)
    ensures NoRuns(a + b) && RunsAfterDirs(a + b)
  {
    forall i | 0 <= i < |a + b| ensures !(a + b)[i].Ran? {
      if i < |a| { assert (a + b)[i] == a[i]; } else { assert (a + b)[i] == b[i - |a|]; }
    }
  }

  /** Every downloaded language is eligible among the `--lang` values, or
      among the configured languages when no `--lang` is given; when the
      resource exists and no TS file or directory is in the way, every
      eligible language is downloaded. */
  lemma PullSelection(p: Parameters, w: World, compile: bool, lang: seq<string>, tool: ToolRun)
    requires Construct(p, false, w).result.Ok?
    ensures
      var t := Construct(p, false, w).result.value;
      var proj := w.remote.orgs[p.organization][p.project];
      var sel := Selection(lang, p.selectedLanguages);
      var downloaded := DownloadedLanguages(PullWith(p, w, compile, lang, tool).trace);
      && (forall code | code in downloaded :: Eligible(t, proj, sel, code))
      && (p.resource in proj.resources && !DiskBlocked(w.local, I18nDir(PluginPath(p)), p.resource, PullLanguages(t, proj, sel)) ==>
            forall code :: code in downloaded <==> Eligible(t, proj, sel, code))
  {
    var t := Construct(p, false, w).result.value;
    var sel := Selection(lang, p.selectedLanguages);
    PullWithDownloads(p, w, compile, lang, tool);
    PullCallsShape(t, w, sel);
  }

  /** Once bound, `pull` downloads what `Translation.pull` downloads. */
  lemma PullWithDownloads(p: Parameters, w: World, compile: bool, lang: seq<string>, tool: ToolRun)
    requires Construct(p, false, w).result.Ok?
    ensures DownloadedLanguages(PullWith(p, w, compile, lang, tool).trace) ==
      DownloadedLanguages(Pull(Construct(p, false, w).result.value, w, Selection(lang, p.selectedLanguages)).trace)
  {
    var c := Construct(p, false, w);
    ConstructQuiet(p, w);
    var pl := Pull(c.result.value, w, Selection(lang, p.selectedLanguages));
    var k := CompileStrings(p, pl.world, tool);
    PullWithTrace(p, w, compile, lang, tool);
    CompileDownloadsNothing(p, pl.world, tool);
    DownloadedConcat(c.trace, pl.trace);
    DownloadedConcat(c.trace + pl.trace, if compile && pl.result.Ok? then k.trace else []);
  }

  /** `push` does push: once the project is bound and the strings are
      updated, a push that is not a dry run ends with `Translation.push()`,
      whose result and service state it returns, and it uploads the TS file
      that pylupdate5 left on disk. */
  lemma PushWithTrace(p: Parameters, w: World, dryRun: bool, tool: ToolRun)
    requires Construct(p, true, w).result.Ok?
    requires UpdateStrings(p, Construct(p, true, w).world, tool).result.Ok?
    requires !dryRun
    ensures var c := Construct(p, true, w);
      var u := UpdateStrings(p, c.world, tool);
      var s := Push(c.result.value, u.world);
      var o := PushWith(p, w, dryRun, tool);
      && o.trace == c.trace + u.trace + s.trace
      && o.result == s.result && o.world == s.world
      && (TranslationFilePath(p) in u.world.local.files ==>
            && o.result.Ok?
            && o.world.remote.orgs[p.organization][p.project].resources[p.resource].content
               == u.world.local.files[TranslationFilePath(p)])
  {
  }

  /** The calls of `pull`: binding, pulling, then compiling if asked and the pull succeeded. */
  lemma PullWithTrace(p: Parameters, w: World, compile: bool, lang: seq<string>, tool: ToolRun)
    requires Construct(p, false, w).result.Ok?
    ensures var c := Construct(p, false, w);
      var pl := Pull(c.result.value, w, Selection(lang, p.selectedLanguages));
      PullWith(p, w, compile, lang, tool).trace ==
        c.trace + pl.trace + (if compile && pl.result.Ok? then CompileStrings(p, pl.world, tool).trace else [])
  {
    var c := Construct(p, false, w);
    var pl := Pull(c.result.value, w, Selection(lang, p.selectedLanguages));
    if !(compile && pl.result.Ok?) {
      assert c.trace + pl.trace + [] == c.trace + pl.trace;
    }
  }

  lemma CompileDownloadsNothing(p: Parameters, w: World, tool: ToolRun)
    ensures DownloadedLanguages(CompileStrings(p, w, tool).trace) == {}
  {
    var t := CompileStrings(p, w, tool).trace;
    forall i | 0 <= i < |t| ensures !t[i].Downloaded? { assert t[i].Ran?; }
  }

  /** A trace that makes the directory and then downloads `langs` holds
      nothing but reads, that directory creation and those downloads. */
  lemma DownloadTraceShape(trace: seq<Effect>, dir: Path, name: string, langs: seq<string>)
    requires DownloadsAfterDirs(trace, dir, name, langs)
    ensures forall i | 0 <= i < |trace| :: trace[i].ReadOnly() || trace[i].DirsMade? || trace[i].Downloaded?
    ensures forall code :: code in DownloadedLanguages(trace) <==> code in langs
    ensures exists j | 0 <= j < |trace| :: trace[j].DirsMade?
  {
    var k :| 0 <= k < |trace| && trace[k] == DirsMade(dir)
      && (forall j | 0 <= j < k :: trace[j].ReadOnly())
      && trace[k + 1..] == Downloads(dir, name, langs);
    assert trace[k].DirsMade?;
    assert trace == trace[..k + 1] + trace[k + 1..];
    ReadsBeforeDownloadNothing(trace, k);
    DownloadedConcat(trace[..k + 1], trace[k + 1..]);
    DownloadsLanguages(dir, name, langs);
    OnlyPullCallsAt(trace, dir, name, langs, k);
  }

  /** Reads followed by one directory creation download nothing. */
  lemma ReadsBeforeDownloadNothing(trace: seq<Effect>, k: nat)
    requires k < |trace| && trace[k].DirsMade?
    requires forall j | 0 <= j < k :: trace[j].ReadOnly()
    ensures DownloadedLanguages(trace[..k + 1]) == {}
  {
    var head := trace[..k + 1];
    forall i | 0 <= i < |head| ensures !head[i].Downloaded? {
      assert head[i] == trace[i];
      if i < k { assert trace[i].ReadOnly(); }
    }
  }

  /** Reads, a directory creation at `k`, then downloads: nothing else. */
  lemma OnlyPullCallsAt(trace: seq<Effect>, dir: Path, name: string, langs: seq<string>, k: nat)
    requires k < |trace| && trace[k].DirsMade?
    requires forall j | 0 <= j < k :: trace[j].ReadOnly()
    requires trace[k + 1..] == Downloads(dir, name, langs)
    ensures forall i | 0 <= i < |trace| :: trace[i].ReadOnly() || trace[i].DirsMade? || trace[i].Downloaded?
  {
    forall i | 0 <= i < |trace|
      ensures trace[i].ReadOnly() || trace[i].DirsMade? || trace[i].Downloaded?
    {
      if i > k { assert trace[i] == trace[k + 1..][i - k - 1]; }
    }
  }

  /** The download calls for `langs` download exactly `langs`. */
  lemma DownloadsLanguages(dir: Path, name: string, langs: seq<string>)
    ensures forall code :: code in DownloadedLanguages(Downloads(dir, name, langs)) <==> code in langs
  {
    var d := Downloads(dir, name, langs);
    forall code ensures code in DownloadedLanguages(d) <==> code in langs {
      if code in langs {
        var i :| 0 <= i < |langs| && langs[i] == code;
        assert d[i].Downloaded? && d[i].lang == code;
      }
    }
  }

  /** A trace of reads, directory creations and downloads neither changes the service nor runs a tool. */
  lemma PullOnlyCalls(trace: seq<Effect>)
    requires forall i | 0 <= i < |trace| :: trace[i].ReadOnly() || trace[i].DirsMade? || trace[i].Downloaded?
    ensures Quiet(trace) && NoRuns(trace)
  {
    forall i | 0 <= i < |trace| ensures !trace[i].ChangesService() && !trace[i].Ran? {
      assert trace[i].ReadOnly() || trace[i].DirsMade? || trace[i].Downloaded?;
    }
  }

  /** What the trace of a pull contains: no service change, no tool run, and
      on success the directory creation and one download per pulled language. */
  lemma PullCallsShape(t: Translation, w: World, selected: seq<string>)
    requires Bound(t, w.remote)
    ensures var o := Pull(t, w, selected);
      var langs := PullLanguages(t, w.remote.orgs[t.org][t.project], selected);
      && Quiet(o.trace) && NoRuns(o.trace)
      && (o.result.Ok? ==> exists k | 0 <= k < |o.trace| :: o.trace[k].DirsMade?)
      && (o.result.Ok? ==> forall code :: code in DownloadedLanguages(o.trace) <==> code in langs)
      && (forall code | code in DownloadedLanguages(o.trace) :: code in langs)
      && (t.tsName !in w.remote.orgs[t.org][t.project].resources ==> DownloadedLanguages(o.trace) == {})
  {
    var proj := w.remote.orgs[t.org][t.project];
    if t.tsName !in proj.resources {
      PullMissingCalls(t, w, selected);
    } else if Blocked(w.local, I18nDir(t.pluginPath)) {
      PullBlockedCalls(t, w, selected);
    } else {
      PullWrittenCalls(t, w, selected);
    }
  }

  /** A pull whose resource is missing only looks the resource up. */
  lemma PullMissingCalls(t: Translation, w: World, selected: seq<string>)
    requires Bound(t, w.remote)
    requires t.tsName !in w.remote.orgs[t.org][t.project].resources
    ensures var o := Pull(t, w, selected);
      Quiet(o.trace) && NoRuns(o.trace) && o.result.Err? && DownloadedLanguages(o.trace) == {}
  {
    var o := Pull(t, w, selected);
    assert o.trace == [FetchResource(t.tsName)];
    assert !o.trace[0].Downloaded? && o.trace[0].ReadOnly();
    PullOnlyCalls(o.trace);
  }

  /** A pull that cannot make the i18n directory only reads. */
  lemma PullBlockedCalls(t: Translation, w: World, selected: seq<string>)
    requires Bound(t, w.remote)
    requires t.tsName in w.remote.orgs[t.org][t.project].resources
    requires Blocked(w.local, I18nDir(t.pluginPath))
    ensures var o := Pull(t, w, selected);
      Quiet(o.trace) && NoRuns(o.trace) && o.result.Err? && DownloadedLanguages(o.trace) == {}
  {
    var o := Pull(t, w, selected);
    assert forall j | 0 <= j < |o.trace| :: o.trace[j].ReadOnly();
    PullOnlyCalls(o.trace);
    assert DownloadedLanguages(o.trace) == {} by {
      forall j | 0 <= j < |o.trace| ensures !o.trace[j].Downloaded? { assert o.trace[j].ReadOnly(); }
    }
  }

  /** A pull that made the i18n directory downloads the languages it wrote,
      all of them on success. */
  lemma PullWrittenCalls(t: Translation, w: World, selected: seq<string>)
    requires Bound(t, w.remote)
    requires t.tsName in w.remote.orgs[t.org][t.project].resources
    requires !Blocked(w.local, I18nDir(t.pluginPath))
    ensures var o := Pull(t, w, selected);
      var langs := PullLanguages(t, w.remote.orgs[t.org][t.project], selected);
      && Quiet(o.trace) && NoRuns(o.trace)
      && (exists k | 0 <= k < |o.trace| :: o.trace[k].DirsMade?)
      && (o.result.Ok? ==> forall code :: code in DownloadedLanguages(o.trace) <==> code in langs)
      && (forall code | code in DownloadedLanguages(o.trace) :: code in langs)
  {
    var o := Pull(t, w, selected);
    var langs := PullLanguages(t, w.remote.orgs[t.org][t.project], selected);
    var dir := I18nDir(t.pluginPath);
    WrittenTraceShape(o.trace, dir, t.tsName, langs, FirstBlocked(w.local.dirs, dir, t.tsName, langs));
  }

  /** A trace that makes the directory and then downloads a prefix of `langs`
      holds no service change and no tool run, and downloads only `langs`,
      every one of them when the prefix is the whole. */
  lemma WrittenTraceShape(trace: seq<Effect>, dir: Path, name: string, langs: seq<string>, k: nat)
    requires k <= |langs|
    requires DownloadsAfterDirs(trace, dir, name, langs[..k])
    ensures Quiet(trace) && NoRuns(trace)
    ensures exists j | 0 <= j < |trace| :: trace[j].DirsMade?
    ensures forall code | code in DownloadedLanguages(trace) :: code in langs
    ensures k == |langs| ==> forall code :: code in DownloadedLanguages(trace) <==> code in langs
  {
    var written := langs[..k];
    DownloadTraceShape(trace, dir, name, written);
    PullOnlyCalls(trace);
    forall i | 0 <= i < |written| ensures written[i] in langs {
      assert written[i] == langs[i];
    }
    if k == |langs| {
      assert written == langs;
    }
  }

  /** `qt-transifex pull [--compile] [--lang L]...`. */
  function PullCommand(w: World, host: Host, compile: bool, lang: seq<string>, tool: ToolRun): (o: Outcome<()>)
    ensures LoadParameters(None, w.local, host).Err? ==>
      o == Outcome(Err(LoadParameters(None, w.local, host).error), w, [])
    ensures LoadParameters(None, w.local, host).Ok? ==> o == PullWith(LoadParameters(None, w.local, host).value, w, compile, lang, tool)
    ensures o.world.remote == w.remote
  {
    match LoadParameters(None, w.local, host)
    case Err(e) => Outcome(Err(e), w, [])
    case Ok(p) => PullWith(p, w, compile, lang, tool)
  }

  /* ---------------------------------------------------------------------- */
  /* compile                                                                */
  /* ---------------------------------------------------------------------- */

  /** `qt-transifex compile`: only lrelease runs; the service is never contacted. */
  function CompileCommand(w: World, host: Host, tool: ToolRun): (o: Outcome<()>)
    ensures o.world.remote == w.remote
    ensures forall i | 0 <= i < |o.trace| :: o.trace[i].Ran?
    ensures LoadParameters(None, w.local, host).Err? ==>
      o == Outcome(Err(LoadParameters(None, w.local, host).error), w, [])
    ensures LoadParameters(None, w.local, host).Ok? ==>
      o == CompileStrings(LoadParameters(None, w.local, host).value, w, tool)
  {
    match LoadParameters(None, w.local, host)
    case Err(e) => Outcome(Err(e), w, [])
    case Ok(p) => CompileStrings(p, w, tool)
  }

  /* ---------------------------------------------------------------------- */
  /* list                                                                   */
  /* ---------------------------------------------------------------------- */

  /** One listed language: code, name, number of strings and ratio. */
  datatype Row = Row(code: string, name: string, strings: nat, ratio: real)

  /** The statistics keyed by language code; a later entry for a code wins. */
  function StatsTable(stats: seq<LanguageStat>): (r: map<string, (nat, real)>)
    ensures forall c :: c in r <==> exists i | 0 <= i < |stats| :: stats[i].code == c
    ensures forall i | 0 <= i < |stats| && (forall j | i < j < |stats| :: stats[j].code != stats[i].code) ::
      r[stats[i].code] == (stats[i].total, stats[i].ratio)
    decreases |stats|
  {
    if |stats| == 0 then map[]
    else
      var last := stats[|stats| - 1];
      StatsTableStep(stats, stats[..|stats| - 1], StatsTable(stats[..|stats| - 1]));
      StatsTable(stats[..|stats| - 1])[last.code := (last.total, last.ratio)]
  }

  /** Adding the last entry to the table of the others gives the table of all. */
  lemma StatsTableStep(stats: seq<LanguageStat>, init: seq<LanguageStat>, t: map<string, (nat, real)>)
    requires |stats| > 0 && init == stats[..|stats| - 1]
    requires forall c :: c in t <==> exists i | 0 <= i < |init| :: init[i].code == c
    requires forall i | 0 <= i < |init| && (forall j | i < j < |init| :: init[j].code != init[i].code) ::
      t[init[i].code] == (init[i].total, init[i].ratio)
    ensures var last := stats[|stats| - 1];
      var r := t[last.code := (last.total, last.ratio)];
      && (forall c :: c in r <==> exists i | 0 <= i < |stats| :: stats[i].code == c)
      && (forall i | 0 <= i < |stats| && (forall j | i < j < |stats| :: stats[j].code != stats[i].code) ::
            r[stats[i].code] == (stats[i].total, stats[i].ratio))
  {
    var n := |stats| - 1;
    var last := stats[n];
    var r := t[last.code := (last.total, last.ratio)];
    forall c ensures c in r <==> exists i | 0 <= i < |stats| :: stats[i].code == c {
      if c in r {
        if c == last.code {
          assert stats[n].code == c;
        } else {
          var i :| 0 <= i < |init| && init[i].code == c;
          assert stats[i].code == c;
        }
      }
      if exists i | 0 <= i < |stats| :: stats[i].code == c {
        var i :| 0 <= i < |stats| && stats[i].code == c;
        if i < n { assert init[i].code == c; }
      }
    }
    forall i | 0 <= i < |stats| && (forall j | i < j < |stats| :: stats[j].code != stats[i].code)
      ensures r[stats[i].code] == (stats[i].total, stats[i].ratio)
    {
      if i < n {
        assert stats[n].code != stats[i].code;
        assert init[i] == stats[i];
        forall j | i < j < |init| ensures init[j].code != init[i].code {
          assert init[j] == stats[j];
        }
      }
    }
  }

  /** Each project language paired with its statistics, in the order the
      service lists them; a language without statistics is a `KeyError`. */
  function Rows(langs: seq<Language>, table: map<string, (nat, real)>): (r: Result<seq<Row>>)
    ensures r.Ok? <==> forall i | 0 <= i < |langs| :: langs[i].code in table
    ensures r.Err? ==> exists i | 0 <= i < |langs| :: langs[i].code !in table && r.error == MissingKey(langs[i].code)
    ensures r.Ok? ==> |r.value| == |langs| && forall i | 0 <= i < |langs| ::
      r.value[i] == Row(langs[i].code, langs[i].name, table[langs[i].code].0, table[langs[i].code].1)
    decreases |langs|
  {
    if |langs| == 0 then Ok([])
    else if langs[0].code !in table then Err(MissingKey(langs[0].code))
    else
      var rest := Rows(langs[1..], table);
      if rest.Err? then Err(rest.error)
      else Ok([Row(langs[0].code, langs[0].name, table[langs[0].code].0, table[langs[0].code].1)] + rest.value)
  }

  predicate NonIncreasing(rows: seq<Row>)
  {
    forall i, j | 0 <= i < j < |rows| :: rows[i].ratio >= rows[j].ratio
  }

  /** The rows whose ratio is `k`, in order. */
  function WithRatio(rows: seq<Row>, k: real): seq<Row>
    decreases |rows|
  {
    if |rows| == 0 then []
    else (if rows[0].ratio == k then [rows[0]] else []) + WithRatio(rows[1..], k)
  }

  /** Puts `x` in front of the first row whose ratio is at most its own. */
  function Insert(x: Row, rows: seq<Row>): (r: seq<Row>)
    requires NonIncreasing(rows)
    ensures NonIncreasing(r)
    ensures multiset(r) == multiset(rows) + multiset{x}
    ensures |r| > 0 && (r[0] == x || (|rows| > 0 && r[0] == rows[0]))
    decreases |rows|
  {
    if |rows| == 0 || x.ratio >= rows[0].ratio then [x] + rows
    else
      var r := [rows[0]] + Insert(x, rows[1..]);
      assert rows == [rows[0]] + rows[1..];
      r
  }

  /** The placement `Insert` makes, without its contract. */
  function Place(x: Row, rows: seq<Row>): seq<Row>
    decreases |rows|
  {
    if |rows| == 0 || x.ratio >= rows[0].ratio then [x] + rows
    else [rows[0]] + Place(x, rows[1..])
  }

  lemma {:induction false} InsertIsPlace(x: Row, rows: seq<Row>)
    requires NonIncreasing(rows)
    ensures Insert(x, rows) == Place(x, rows)
    decreases |rows|
  {
    if |rows| > 0 && x.ratio < rows[0].ratio {
      assert NonIncreasing(rows[1..]);
      InsertIsPlace(x, rows[1..]);
    }
  }

  /** Inserting a row adds it to the rows of its own ratio, in front, and
      leaves the rows of every other ratio as they were. */
  lemma {:induction false} WithRatioInsert(x: Row, rows: seq<Row>, k: real)
    requires NonIncreasing(rows)
    ensures WithRatio(Insert(x, rows), k) == (if x.ratio == k then [x] else []) + WithRatio(rows, k)
  {
    InsertIsPlace(x, rows);
    WithRatioPlace(x, rows, k);
  }

  lemma {:induction false} WithRatioPlace(x: Row, rows: seq<Row>, k: real)
    ensures WithRatio(Place(x, rows), k) == (if x.ratio == k then [x] else []) + WithRatio(rows, k)
    decreases |rows|
  {
    if |rows| == 0 || x.ratio >= rows[0].ratio {
      WithRatioCons(x, rows, k);
    } else {
      var hx := if x.ratio == k then [x] else [];
      var h0 := if rows[0].ratio == k then [rows[0]] else [];
      var tail := WithRatio(rows[1..], k);
      WithRatioPlace(x, rows[1..], k);
      WithRatioCons(rows[0], Place(x, rows[1..]), k);
      WithRatioCons(rows[0], rows[1..], k);
      assert rows == [rows[0]] + rows[1..];
      // x ranks below rows[0], so at most one of them has ratio k
      assert h0 == [] || hx == [];
      assert h0 + (hx + tail) == hx + (h0 + tail);
    }
  }

  /** `WithRatio` of a row put in front. */
  lemma WithRatioCons(y: Row, rows: seq<Row>, k: real)
    ensures WithRatio([y] + rows, k) == (if y.ratio == k then [y] else []) + WithRatio(rows, k)
  {
    assert ([y] + rows)[1..] == rows;
  }

  /** `sorted(rows, key=ratio, reverse=True)`: highest ratio first, and rows
      with equal ratios keep their order. */
  function SortByRatio(rows: seq<Row>): (r: seq<Row>)
    ensures NonIncreasing(r)
    ensures multiset(r) == multiset(rows)
    ensures forall k :: WithRatio(r, k) == WithRatio(rows, k)
    decreases |rows|
  {
    if |rows| == 0 then []
    else
      var rest := SortByRatio(rows[1..]);
      var r := Insert(rows[0], rest);
      assert rows == [rows[0]] + rows[1..];
      forall k ensures WithRatio(r, k) == WithRatio(rows, k) {
        WithRatioInsert(rows[0], rest, k);
      }
      r
  }

  /** The listing once the parameters are loaded. */
  function ListWith(p: Parameters, remote: Remote): (r: Result<seq<Row>>)
    ensures p.organization !in remote.orgs ==> r == Err(OrganizationNotRegistered(p.organization))
    ensures p.organization in remote.orgs && p.project !in remote.orgs[p.organization] ==>
      r == Err(ListedProjectNotFound(p.project))
    ensures p.organization in remote.orgs && p.project in remote.orgs[p.organization] ==>
      var proj := remote.orgs[p.organization][p.project];
      var rows := Rows(proj.languages, StatsTable(LanguageStats(proj, p.resource)));
      && (r.Ok? <==> rows.Ok?)
      && (rows.Err? ==> r == Err(rows.error))
    ensures r.Ok? ==>
      var proj := remote.orgs[p.organization][p.project];
      var rows := Rows(proj.languages, StatsTable(LanguageStats(proj, p.resource)));
      && rows.Ok?
      && NonIncreasing(r.value)
      && multiset(r.value) == multiset(rows.value)
      && forall k :: WithRatio(r.value, k) == WithRatio(rows.value, k)
  {
    var org :- Connect(remote, p.organization);
    match FindProject(remote, org, p.project)
    case None => Err(ListedProjectNotFound(p.project))
    case Some(proj) =>
      var rows :- Rows(proj.languages, StatsTable(LanguageStats(proj, p.resource)));
      Ok(SortByRatio(rows))
  }

  /** `qt-transifex list`: the rows it prints, in order. */
  function ListCommand(w: World, host: Host): (r: Result<seq<Row>>)
    ensures LoadParameters(None, w.local, host).Err? ==> r == Err(LoadParameters(None, w.local, host).error)
    ensures LoadParameters(None, w.local, host).Ok? ==> r == ListWith(LoadParameters(None, w.local, host).value, w.remote)
    ensures r.Ok? ==> NonIncreasing(r.value)
  {
    var p :- LoadParameters(None, w.local, host);
    ListWith(p, w.remote)
  }

  /* ---------------------------------------------------------------------- */
  /* Exit status                                                            */
  /* ---------------------------------------------------------------------- */

  /** How the program ends: normally, with a status and an error report, or
      with an uncaught exception, which the interpreter turns into status 1. */
  datatype Exit = Exit(status: int, report: string) | Crash(error: Error)
  {
    function Status(): int
    {
      if Exit? then status else 1
    }
  }

  /** `main()`: a `TranslationError` is reported as "ERROR: <message>" with
      status 1; any other error escapes. */
  function ExitFor<T>(r: Result<T>): (e: Exit)
    ensures r.Ok? ==> e == Exit(0, "")
    ensures r.Err? && r.error.IsTranslationError() ==> e.Exit? && StartsWith(e.report, "ERROR: ")
    ensures r.Err? && !r.error.IsTranslationError() ==> e == Crash(r.error)
  {
    match r
    case Ok(_) => Exit(0, "")
    case Err(err) =>
      if err.IsTranslationError() then Exit(1, "ERROR: " + Message(err)) else Crash(err)
  }

  /** The status is zero exactly when the command succeeded, and an error
      report names what it is about. */
  lemma ExitStatus<T>(r: Result<T>)
    ensures ExitFor(r).Status() == 0 <==> r.Ok?
    ensures r.Err? && r.error.IsTranslationError() ==>
      ExitFor(r).Status() == 1 && Mentions(ExitFor(r).report, Subject(r.error))
  {
    if r.Err? && r.error.IsTranslationError() {
      MessageNamesSubject(r.error);
      MentionsAfterPrefix("ERROR: ", Message(r.error), Subject(r.error));
    }
  }

  lemma MentionsAfterPrefix(prefix: string, text: string, part: string)
    requires Mentions(text, part)
    ensures Mentions(prefix + text, part)
  {
    var i :| 0 <= i <= |text| && OccursAt(text, part, i);
    var j := |prefix| + i;
    assert (prefix + text)[j..j + |part|] == text[i..i + |part|];
    assert OccursAt(prefix + text, part, j);
  }
}

=== FILE: client.dfy ===
/**
 The adapter to the remote translation service (qt_transifex/client.py).

 The service is abstract state: organizations hold projects by slug, a
 project holds its languages and its resources by slug, and a resource
 holds its source text, its per-language statistics records and its
 translations. Each call of the adapter is a function of that state; the
 ones that create or upload return the new state.
 */
module Client {
  import opened Text
  import opened Results

  datatype Language = Language(code: string, name: string)

  /** A statistics record of the service: its id ends with `:l:<code>`. */
  datatype StatRecord = StatRecord(id: string, translated: nat, total: nat)

  datatype Resource = Resource(
    name: string,
    slug: string,
    format: string,
    content: string,
    stats: seq<StatRecord>,
    translations: map<string, string>)

  datatype Project = Project(
    name: string,
    slug: string,
    sourceLanguage: string,
    isPrivate: bool,
    repositoryUrl: Option<string>,
    languages: seq<Language>,
    resources: map<string, Resource>)

  /** The service: the language codes it knows, and the projects of each organization. */
  datatype Remote = Remote(catalog: set<string>, orgs: map<string, map<string, Project>>)

  /** One entry of `language_stats`: code, number of strings, percentage translated. */
  datatype LanguageStat = LanguageStat(code: string, total: nat, ratio: real)

  /** The result of a call that may change the service. */
  datatype Changed<T> = Changed(result: Result<T>, remote: Remote)

  /** The format every resource is created with. */
  const QtFormat := "QT"

  /** Every project and every resource of `before` is still in `after`. */
  ghost predicate NothingDeleted(before: Remote, after: Remote)
  {
    forall org | org in before.orgs ::
      && org in after.orgs
      && forall slug | slug in before.orgs[org] ::
           && slug in after.orgs[org]
           && before.orgs[org][slug].resources.Keys <= after.orgs[org][slug].resources.Keys
  }

  /* ---------------------------------------------------------------------- */
  /* Lookups: "not found" is None                                           */
  /* ---------------------------------------------------------------------- */

  /** `Client(org, token)`: fails unless the organization is registered. */
  function Connect(remote: Remote, org: string): (r: Result<string>)
    ensures r.Ok? <==> org in remote.orgs
    ensures r.Ok? ==> r.value == org
    ensures r.Err? ==> r.error == OrganizationNotRegistered(org) && r.error.IsTranslationError()
  {
    if org in remote.orgs then Ok(org) else Err(OrganizationNotRegistered(org))
  }

  /** `Client.project(name)`. */
  function FindProject(remote: Remote, org: string, name: string): (r: Option<Project>)
    requires org in remote.orgs
    ensures r.None? <==> name !in remote.orgs[org]
    ensures r.Some? ==> r.value == remote.orgs[org][name]
  {
    if name in remote.orgs[org] then Some(remote.orgs[org][name]) else None
  }

  /** `Project.resource(name)`. */
  function FindResource(p: Project, name: string): (r: Option<Resource>)
    ensures r.None? <==> name !in p.resources
    ensures r.Some? ==> r.value == p.resources[name]
  {
    if name in p.resources then Some(p.resources[name]) else None
  }

  /* ---------------------------------------------------------------------- */
  /* Creation                                                               */
  /* ---------------------------------------------------------------------- */

  /** Python's truth value of an optional URL. */
  predicate HasUrl(url: Option<string>)
  {
    url.Some? && url.value != ""
  }

  /** `Client.create_project(name, lang, private=..., repository_url=...)`.
      The source language is looked up first; a public project needs a URL. */
  function CreateProject(remote: Remote, org: string, name: string, lang: string, isPrivate: bool, url: Option<string>)
    : (r: Changed<Project>)
    requires org in remote.orgs
    ensures lang !in remote.catalog ==> r.result == Err(RemoteNotFound("language", lang))
    ensures lang in remote.catalog && !isPrivate && !HasUrl(url) ==> r.result == Err(RepositoryUrlRequired)
    ensures lang in remote.catalog && (isPrivate || HasUrl(url)) && name !in remote.orgs[org] ==> r.result.Ok?
    ensures r.result.Err? ==> r.remote == remote
    ensures r.result.Ok? ==>
      var p := r.result.value;
      && p.name == name && p.slug == name && p.sourceLanguage == lang && p.isPrivate == isPrivate
      && p.repositoryUrl == (if HasUrl(url) then url else None)
      && p.languages == [] && p.resources == map[]
      && name !in remote.orgs[org]
      && r.remote == remote.(orgs := remote.orgs[org := remote.orgs[org][name := p]])
  {
    if lang !in remote.catalog then Changed(Err(RemoteNotFound("language", lang)), remote)
    else if !HasUrl(url) && !isPrivate then Changed(Err(RepositoryUrlRequired), remote)
    else if name in remote.orgs[org] then Changed(Err(RemoteConflict(name)), remote)
    else
      var p := Project(name, name, lang, isPrivate, if HasUrl(url) then url else None, [], map[]);
      Changed(Ok(p), remote.(orgs := remote.orgs[org := remote.orgs[org][name := p]]))
  }

  /** A project created by `CreateProject` is what `FindProject` finds next,
      and nothing that existed before is gone. */
  lemma CreateProjectThenFind(remote: Remote, org: string, name: string, lang: string, isPrivate: bool, url: Option<string>)
    requires org in remote.orgs
    requires CreateProject(remote, org, name, lang, isPrivate, url).result.Ok?
    ensures var c := CreateProject(remote, org, name, lang, isPrivate, url);
      && org in c.remote.orgs
      && FindProject(c.remote, org, name) == Some(c.result.value)
      && NothingDeleted(remote, c.remote)
      && forall other | other != name && other in remote.orgs[org] ::
           FindProject(c.remote, org, other) == FindProject(remote, org, other)
  {
  }

  /** `Project.create_resource(name)`: the name is both name and slug, in the QT format. */
  function CreateResource(remote: Remote, org: string, project: string, name: string): (r: Changed<Resource>)
    requires org in remote.orgs && project in remote.orgs[org]
    ensures r.result.Ok? <==> name !in remote.orgs[org][project].resources
    ensures r.result.Err? ==> r.remote == remote
    ensures r.result.Ok? ==>
      && r.result.value == Resource(name, name, QtFormat, "", [], map[])
      && org in r.remote.orgs && project in r.remote.orgs[org]
      && r.remote.orgs[org][project] == remote.orgs[org][project].(resources := remote.orgs[org][project].resources[name := r.result.value])
      && r.remote.catalog == remote.catalog
      && forall o, s | o in remote.orgs && s in remote.orgs[o] && (o, s) != (org, project) ::
           o in r.remote.orgs && s in r.remote.orgs[o] && r.remote.orgs[o][s] == remote.orgs[o][s]
  {
    var p := remote.orgs[org][project];
    if name in p.resources then Changed(Err(RemoteConflict(name)), remote)
    else
      var res := Resource(name, name, QtFormat, "", [], map[]);
      var p' := p.(resources := p.resources[name := res]);
      Changed(Ok(res), remote.(orgs := remote.orgs[org := remote.orgs[org][project := p']]))
  }

  /** `Resource.update(path)`: the resource's source text is replaced by `text`. */
  function Upload(remote: Remote, org: string, project: string, slug: string, text: string): (r: Remote)
    requires org in remote.orgs && project in remote.orgs[org] && slug in remote.orgs[org][project].resources
    ensures org in r.orgs && project in r.orgs[org] && slug in r.orgs[org][project].resources
    ensures r.orgs[org][project].resources[slug] == remote.orgs[org][project].resources[slug].(content := text)
    ensures r.orgs.Keys == remote.orgs.Keys && r.catalog == remote.catalog
    ensures r.orgs[org].Keys == remote.orgs[org].Keys
    ensures r.orgs[org][project] == remote.orgs[org][project].(resources := r.orgs[org][project].resources)
    ensures r.orgs[org][project].resources.Keys == remote.orgs[org][project].resources.Keys
    ensures forall s | s in remote.orgs[org][project].resources && s != slug ::
      r.orgs[org][project].resources[s] == remote.orgs[org][project].resources[s]
    ensures forall o, s | o in remote.orgs && s in remote.orgs[o] && (o, s) != (org, project) ::
      o in r.orgs && s in r.orgs[o] && r.orgs[o][s] == remote.orgs[o][s]
  {
    var p := remote.orgs[org][project];
    var p' := p.(resources := p.resources[slug := p.resources[slug].(content := text)]);
    remote.(orgs := remote.orgs[org := remote.orgs[org][project := p']])
  }

  /* ---------------------------------------------------------------------- */
  /* Statistics                                                             */
  /* ---------------------------------------------------------------------- */

  /** The percentage of translated strings; 0 when there are no strings. */
  function Ratio(translated: nat, total: nat): (r: real)
    ensures total == 0 ==> r == 0.0
    ensures total > 0 ==> r * (total as real) == 100.0 * (translated as real)
    ensures translated <= total ==> 0.0 <= r <= 100.0
    ensures total > 0 ==> (r == 100.0 <==> translated == total)
  {
    if total > 0 then 100.0 * ((translated as real) / (total as real)) else 0.0
  }

  /** The separator before the language code in a statistics id. */
  const LanguageMark := ":l:"

  /** The language code of a statistics id: the text after the first `:l:`,
      or the empty string when there is none (`id.partition(":l:")[2]`). */
  function StatCode(id: string): (r: string)
    ensures (forall j :: !OccursAt(id, LanguageMark, j)) ==> r == ""
    ensures (exists j :: OccursAt(id, LanguageMark, j)) ==>
      exists before :: id == before + LanguageMark + r && forall j | j < |before| :: !OccursAt(id, LanguageMark, j)
  {
    var parts := Partition(id, LanguageMark);
    parts.2
  }

  /** An id made of a prefix, the separator and a code yields the code,
      provided the separator does not already start inside the prefix. */
  lemma StatCodeOf(prefix: string, code: string)
    requires forall j :: !OccursAt(prefix + ":l", LanguageMark, j)
    ensures StatCode(prefix + LanguageMark + code) == code
  {
    var id := prefix + LanguageMark + code;
    assert OccursAt(id, LanguageMark, |prefix|) by {
      assert id[|prefix|..|prefix| + 3] == LanguageMark;
    }
    forall j | j < |prefix|
      ensures !OccursAt(id, LanguageMark, j)
    {
      if 0 <= j {
        assert id[j..j + 3] == (prefix + ":l")[j..j + 3];
        assert !OccursAt(prefix + ":l", LanguageMark, j);
      }
    }
    var parts := Partition(id, LanguageMark);
    assert parts.1 == LanguageMark;
    assert |parts.0| == |prefix|;
    assert id == prefix + LanguageMark + parts.2;
    assert parts.2 == id[|prefix| + 3..];
    assert id[|prefix| + 3..] == code;
  }

  /** One statistics record as `language_stats` reports it. */
  function StatOf(st: StatRecord): (r: LanguageStat)
    ensures r.code == StatCode(st.id) && r.total == st.total
    ensures r.ratio == Ratio(st.translated, st.total)
    ensures st.translated <= st.total ==> 0.0 <= r.ratio <= 100.0
  {
    LanguageStat(StatCode(st.id), st.total, Ratio(st.translated, st.total))
  }

  /** `Project.language_stats(resource)`: one entry per statistics record of
      the resource, in the service's order; nothing when the resource is missing. */
  function LanguageStats(p: Project, resource: string): (r: seq<LanguageStat>)
    ensures resource !in p.resources ==> r == []
    ensures resource in p.resources ==> |r| == |p.resources[resource].stats|
    ensures resource in p.resources ==> forall i | 0 <= i < |r| ::
      r[i] == StatOf(p.resources[resource].stats[i])
  {
    if resource !in p.resources then []
    else
      var stats := p.resources[resource].stats;
      seq(|stats|, i requires 0 <= i < |stats| => StatOf(stats[i]))
  }

  /* ---------------------------------------------------------------------- */
  /* Download                                                               */
  /* ---------------------------------------------------------------------- */

  /** The encoding a downloaded body is decoded with: the reported one, or
      UTF-8 when the service reports none. */
  function ChooseEncoding(reported: Option<string>): (r: string)
    ensures r != ""
    ensures reported.Some? && reported.value != "" ==> r == reported.value
    ensures reported.None? || reported.value == "" ==> r == "utf-8"
  {
    if reported.Some? && reported.value != "" then reported.value else "utf-8"
  }

  /** The translated text `Resource.download(lang, path)` writes: the
      resource's translation for `lang`, or the empty text when it has none. */
  function DownloadText(res: Resource, lang: string): string
  {
    if lang in res.translations then res.translations[lang] else ""
  }
}

=== FILE: parameters.dfy ===
/**
 Configuration: finding the configuration file, selecting its
 `qt-transifex` table, filling in the defaults, and validating the result
 into a `Parameters` record (qt_transifex/parameters.py).

 The parsed TOML documents and `metadata.txt` files are given by the `Host`
 record; the TOML and INI parsers themselves are not modelled.
 */
module Settings {
  import opened Text
  import opened Paths
  import opened Results

  /** A parsed configuration value. `Null` is Python's `None`, which
      `dict.get` returns for a missing key. */
  datatype Value =
    | Null
    | Bool(b: bool)
    | Num(n: real)
    | Str(s: string)
    | PathValue(p: Path)
    | Array(items: seq<Value>)
    | Table(entries: map<string, Value>)

  type Config = map<string, Value>

  /** An INI file: section name to option name to value. */
  type Ini = map<string, map<string, string>>

  /** What the process sees of its environment besides the local filesystem:
      its working directory, what `shutil.which` finds for each tool name,
      the parsed TOML documents and the parsed INI files. */
  datatype Host = Host(cwd: Path, which: map<string, Path>, toml: map<Path, Config>, ini: map<Path, Ini>)

  /** `config.get(key)`. */
  function Get(c: Config, key: string): Value
  {
    if key in c then c[key] else Null
  }

  /** Python's truth value of a configuration value. */
  predicate Truthy(v: Value)
  {
    match v
    case Null => false
    case Bool(b) => b
    case Num(n) => n != 0.0
    case Str(s) => s != ""
    case PathValue(_) => true
    case Array(items) => |items| > 0
    case Table(entries) => |entries| > 0
  }

  /* ---------------------------------------------------------------------- */
  /* _parse_str_sequence                                                    */
  /* ---------------------------------------------------------------------- */

  /** The argument of `_parse_str_sequence`: either one string or a sequence of strings. */
  datatype StrOrSeq = OneString(s: string) | Strings(items: seq<string>)

  /** A sequence is returned unchanged; a string is a comma-separated list,
      the empty string being the empty list. */
  function ParseStrSequence(v: StrOrSeq): (r: seq<string>)
    ensures v.Strings? ==> r == v.items
    ensures v.OneString? && v.s == "" ==> r == []
    ensures v.OneString? && v.s != "" ==>
      && |r| == Count(v.s, ',') + 1
      && Join(r, ',') == v.s
      && forall i | 0 <= i < |r| :: ',' !in r[i]
  {
    match v
    case Strings(items) => items
    case OneString(s) =>
      if s == "" then []
      else
        JoinSplit(s, ',');
        SplitParts(s, ',');
        Split(s, ',')
  }

  /* ---------------------------------------------------------------------- */
  /* find_config_file / read_config_from_file                               */
  /* ---------------------------------------------------------------------- */

  /** The candidate configuration files, in the order they are tried. */
  const ConfigNames: seq<string> := ["pyproject.toml", "qt-transifex.toml", ".qt-transifex.toml"]

  /** The first of `dir/names[i]` that exists. */
  function FirstExisting(dir: Path, names: seq<string>, l: Local): (r: Option<Path>)
    ensures r.None? <==> forall i | 0 <= i < |names| :: !l.Exists(Child(dir, names[i]))
    ensures r.Some? ==> exists i | 0 <= i < |names| ::
      && r.value == Child(dir, names[i])
      && l.Exists(r.value)
      && forall j | 0 <= j < i :: !l.Exists(Child(dir, names[j]))
    decreases |names|
  {
    if |names| == 0 then None
    else if l.Exists(Child(dir, names[0])) then Some(Child(dir, names[0]))
    else
      var r := FirstExisting(dir, names[1..], l);
      assert forall i | 1 <= i <= |names[1..]| :: names[1..][i - 1] == names[i];
      r
  }

  /** `find_config_file(rootdir)`. */
  function FindConfigFile(root: Path, l: Local): (r: Option<Path>)
    ensures l.Exists(Child(root, "pyproject.toml")) ==> r == Some(Child(root, "pyproject.toml"))
    ensures !l.Exists(Child(root, "pyproject.toml")) && l.Exists(Child(root, "qt-transifex.toml")) ==>
      r == Some(Child(root, "qt-transifex.toml"))
    ensures (!l.Exists(Child(root, "pyproject.toml")) && !l.Exists(Child(root, "qt-transifex.toml"))
             && l.Exists(Child(root, ".qt-transifex.toml"))) ==> r == Some(Child(root, ".qt-transifex.toml"))
    ensures r.None? <==>
      && !l.Exists(Child(root, "pyproject.toml"))
      && !l.Exists(Child(root, "qt-transifex.toml"))
      && !l.Exists(Child(root, ".qt-transifex.toml"))
  {
    var r := FirstExisting(root, ConfigNames, l);
    assert ConfigNames[0] == "pyproject.toml" && ConfigNames[1] == "qt-transifex.toml"
      && ConfigNames[2] == ".qt-transifex.toml";
    r
  }

  /** Index of the last `c` in `s`, or -1 (`str.rfind`). */
  function LastIndexOf(s: string, c: char): (r: int)
    ensures -1 <= r < |s|
    ensures r >= 0 ==> s[r] == c && forall j | r < j < |s| :: s[j] != c
    ensures r == -1 ==> c !in s
    decreases |s|
  {
    if |s| == 0 then -1
    else if s[|s| - 1] == c then |s| - 1
    else LastIndexOf(s[..|s| - 1], c)
  }

  /** pathlib's `PurePath.name`. */
  function Name(p: Path): string
  {
    if |p| == 0 then "" else p[|p| - 1]
  }

  /** pathlib's `PurePath.stem`: the name without its last suffix; a leading
      dot or a trailing dot does not start a suffix. */
  function Stem(name: string): (r: string)
    ensures StartsWith(name, r)
    ensures r != name ==> '.' !in name[|r| + 1..] && name[|r|] == '.' && |r| > 0
  {
    var i := LastIndexOf(name, '.');
    if 0 < i < |name| - 1 then name[..i] else name
  }

  /** Only the first candidate is a `pyproject` file. */
  lemma CandidateStems()
    ensures Stem(ConfigNames[0]) == "pyproject"
    ensures Stem(ConfigNames[1]) == "qt-transifex"
    ensures Stem(ConfigNames[2]) == ".qt-transifex"
  {
    assert LastIndexOf("pyproject.toml", '.') == 9 by {
      assert "pyproject.toml"[..14 - 1] == "pyproject.tom";
      assert "pyproject.tom"[..13 - 1] == "pyproject.to";
      assert "pyproject.to"[..12 - 1] == "pyproject.t";
      assert "pyproject.t"[..11 - 1] == "pyproject.";
    }
    assert LastIndexOf("qt-transifex.toml", '.') == 12 by {
      assert "qt-transifex.toml"[..17 - 1] == "qt-transifex.tom";
      assert "qt-transifex.tom"[..16 - 1] == "qt-transifex.to";
      assert "qt-transifex.to"[..15 - 1] == "qt-transifex.t";
      assert "qt-transifex.t"[..14 - 1] == "qt-transifex.";
    }
    assert LastIndexOf(".qt-transifex.toml", '.') == 13 by {
      assert ".qt-transifex.toml"[..18 - 1] == ".qt-transifex.tom";
      assert ".qt-transifex.tom"[..17 - 1] == ".qt-transifex.to";
      assert ".qt-transifex.to"[..16 - 1] == ".qt-transifex.t";
      assert ".qt-transifex.t"[..15 - 1] == ".qt-transifex.";
    }
  }

  /** `config.get(key, {})`. */
  function GetOrEmpty(c: Config, key: string): Value
  {
    if key in c then c[key] else Table(map[])
  }

  /** A value that the program goes on to use as a table (calling `.get` or
      `.update` on it): anything else fails with AttributeError. */
  function AsTable(v: Value, key: string): (r: Result<Config>)
    ensures r.Ok? <==> v.Table?
    ensures r.Ok? ==> r.value == v.entries
    ensures r.Err? ==> r.error == NotATable(key)
  {
    match v
    case Table(entries) => Ok(entries)
    case _ => Err(NotATable(key))
  }

  /** `read_config_from_file(path)`: the `qt-transifex` entry, looked up under
      `tool` in a `pyproject` file; a missing entry is the empty table. The
      entry is returned whatever its type; only a `tool` entry that is not a
      table fails here, on its `.get`. */
  function ReadConfig(path: Path, host: Host): (r: Result<Value>)
    ensures path !in host.toml ==> r == Err(Unreadable(path))
    ensures path in host.toml && Stem(Name(path)) != "pyproject" ==>
      var doc := host.toml[path];
      && ("qt-transifex" !in doc ==> r == Ok(Table(map[])))
      && ("qt-transifex" in doc ==> r == Ok(doc["qt-transifex"]))
    ensures path in host.toml && Stem(Name(path)) == "pyproject" ==>
      var doc := host.toml[path];
      && ("tool" !in doc ==> r == Ok(Table(map[])))
      && ("tool" in doc && !doc["tool"].Table? ==> r == Err(NotATable("tool")))
      && ("tool" in doc && doc["tool"].Table? ==>
            var tool := doc["tool"].entries;
            && ("qt-transifex" !in tool ==> r == Ok(Table(map[])))
            && ("qt-transifex" in tool ==> r == Ok(tool["qt-transifex"])))
  {
    if path !in host.toml then Err(Unreadable(path))
    else
      var doc := host.toml[path];
      var config :- if Stem(Name(path)) == "pyproject" then AsTable(GetOrEmpty(doc, "tool"), "tool") else Ok(doc);
      Ok(GetOrEmpty(config, "qt-transifex"))
  }

  /* ---------------------------------------------------------------------- */
  /* load_parameters                                                        */
  /* ---------------------------------------------------------------------- */

  /** `rootdir or Path.cwd()`. */
  function RootOf(rootArg: Option<Path>, host: Host): Path
  {
    if rootArg.Some? then rootArg.value else host.cwd
  }

  /** The table read from the configuration file found under `root`; an
      entry that is not a table fails at `config.update`. */
  function ConfigSection(root: Path, l: Local, host: Host): (r: Result<Config>)
    ensures FindConfigFile(root, l).None? ==> r == Err(ConfigNotFound)
    ensures FindConfigFile(root, l).Some? ==>
      var read := ReadConfig(FindConfigFile(root, l).value, host);
      && (read.Err? ==> r == Err(read.error))
      && (read.Ok? && read.value.Table? ==> r == Ok(read.value.entries))
      && (read.Ok? && !read.value.Table? ==> r == Err(NotATable("qt-transifex")))
  {
    match FindConfigFile(root, l)
    case None => Err(ConfigNotFound)
    case Some(path) =>
      var v :- ReadConfig(path, host);
      AsTable(v, "qt-transifex")
  }

  /** `ConfigParser.get(section, option)`: an option missing from the section
      is looked up in the `DEFAULT` section. */
  function IniGet(ini: Ini, section: string, option: string): (r: Result<string>)
    ensures section !in ini ==> r == Err(NoSection(section))
    ensures section in ini && option in ini[section] ==> r == Ok(ini[section][option])
    ensures section in ini && option !in ini[section] ==>
      && (r.Ok? <==> "DEFAULT" in ini && option in ini["DEFAULT"])
      && (r.Ok? ==> r.value == ini["DEFAULT"][option])
      && (r.Err? ==> r.error == NoOption(section, option))
  {
    if section !in ini then Err(NoSection(section))
    else if option in ini[section] then Ok(ini[section][option])
    else if "DEFAULT" in ini && option in ini["DEFAULT"] then Ok(ini["DEFAULT"][option])
    else Err(NoOption(section, option))
  }

  /** The `[general] repository` entry of the plugin's `metadata.txt`; a
      missing metadata file reads as an empty one. */
  function MetadataRepository(root: Path, pluginSource: Value, host: Host): Result<string>
  {
    match pluginSource
    case Str(s) =>
      var path := Child(JoinPath(root, ParsePath(s)), "metadata.txt");
      var ini := if path in host.ini then host.ini[path] else map[];
      IniGet(ini, "general", "repository")
    case _ => Err(WrongType("plugin_source"))
  }

  /** The defaulting steps of `load_parameters` on the table read from the file. */
  function WithDefaults(section: Config, root: Path, host: Host): (r: Result<Config>)
    ensures "plugin_source" !in section ==> r == Err(MissingKey("plugin_source"))
    ensures r.Ok? ==> "rootdir" in r.value && r.value["rootdir"] == PathValue(root)
    ensures r.Ok? ==> "resource" in r.value && "repository_url" in r.value
    ensures r.Ok? && Truthy(Get(section, "resource")) ==> r.value["resource"] == section["resource"]
    ensures r.Ok? && !Truthy(Get(section, "resource")) ==> Get(r.value, "resource") == Get(section, "project")
    ensures Truthy(Get(section, "repository_url")) && "plugin_source" in section ==>
      r.Ok? && "repository_url" in r.value && r.value["repository_url"] == section["repository_url"]
    ensures !Truthy(Get(section, "repository_url")) && "plugin_source" in section ==>
      var url := MetadataRepository(root, section["plugin_source"], host);
      && (r.Ok? <==> url.Ok?)
      && (r.Ok? ==> "repository_url" in r.value && r.value["repository_url"] == Str(url.value))
    ensures r.Ok? ==> forall k | k in section && k != "rootdir" && k != "resource" && k != "repository_url" ::
      k in r.value && r.value[k] == section[k]
    ensures r.Ok? ==> (r.value.Keys == section.Keys + {"rootdir", "resource", "repository_url"} ||
                       r.value.Keys == section.Keys + {"rootdir", "resource"})
  {
    var c1 := section["rootdir" := PathValue(root)];
    var c2 := if Truthy(Get(c1, "resource")) then c1 else c1["resource" := Get(c1, "project")];
    if "plugin_source" !in c2 then Err(MissingKey("plugin_source"))
    else if Truthy(Get(c2, "repository_url")) then Ok(c2)
    else
      var url :- MetadataRepository(root, c2["plugin_source"], host);
      Ok(c2["repository_url" := Str(url)])
  }

  /* ---------------------------------------------------------------------- */
  /* Parameters and their validation                                        */
  /* ---------------------------------------------------------------------- */

  datatype Parameters = Parameters(
    rootdir: Path,
    pluginSource: PathArg,
    organization: string,
    project: string,
    resource: string,
    sourceLang: string,
    lrelease: Path,
    pylupdate5: Path,
    repositoryUrl: string,
    selectedLanguages: seq<string>,
    minimumTranslation: Option<real>)

  /** `Parameters.plugin_path`: the plugin source directory below the root. */
  function PluginPath(p: Parameters): (r: Path)
    ensures !p.pluginSource.absolute ==> |r| >= |p.rootdir| && r[..|p.rootdir|] == p.rootdir
    ensures !p.pluginSource.absolute ==> r == p.rootdir + p.pluginSource.parts
    ensures p.pluginSource.absolute ==> r == p.pluginSource.parts
  {
    JoinPath(p.rootdir, p.pluginSource)
  }

  /** The field names of `Parameters`; any other key is refused. */
  const FieldNames: set<string> := LocationFields + IdentityFields + ToolFields + SelectionFields

  const LocationFields: set<string> := {"rootdir", "plugin_source"}
  const IdentityFields: set<string> := {"organization", "project", "resource", "source_lang"}
  const ToolFields: set<string> := {"lrelease_executable", "pylupdate5_executable", "repository_url"}
  const SelectionFields: set<string> := {"selected_languages", "minimum_translation"}

  /** The bounds on `minimum_translation`. */
  predicate ValidRatio(m: Option<real>)
  {
    m.None? || 0.0 <= m.value <= 100.0
  }

  /** An `http` or `https` URL with something after the scheme. */
  predicate IsHttpUrl(s: string)
  {
    (StartsWith(s, "http://") && |s| > 7) || (StartsWith(s, "https://") && |s| > 8)
  }

  function RootField(c: Config): (r: Option<Path>)
    ensures r.Some? ==> "rootdir" in c && c["rootdir"] == PathValue(r.value)
  {
    match Get(c, "rootdir")
    case PathValue(p) => Some(p)
    case _ => None
  }

  function PluginSourceField(c: Config): (r: Option<PathArg>)
    ensures r.Some? ==> "plugin_source" in c && c["plugin_source"].Str? && r.value == ParsePath(c["plugin_source"].s)
  {
    match Get(c, "plugin_source")
    case Str(s) => Some(ParsePath(s))
    case _ => None
  }

  /** A `str` field, with its default when the key is absent (`None` when required). */
  function TextField(c: Config, key: string, default: Option<string>): (r: Option<string>)
    ensures key !in c ==> r == default
    ensures key in c && r.Some? ==> c[key] == Str(r.value)
  {
    if key !in c then default
    else match c[key]
      case Str(s) => Some(s)
      case _ => None
  }

  /** The default of an executable field: what `shutil.which` finds, or the bare tool name. */
  function DefaultExecutable(tool: string, host: Host): PathArg
  {
    if tool in host.which then PathArg(true, host.which[tool]) else ParsePath(tool)
  }

  /** A `FilePath` field: it must name an existing file, relative paths being
      taken from the working directory. The default is validated as well. */
  function ExecutableField(c: Config, key: string, tool: string, l: Local, host: Host): (r: Option<Path>)
    ensures r.Some? ==> r.value in l.files
    ensures key !in c ==> (r.Some? <==> JoinPath(host.cwd, DefaultExecutable(tool, host)) in l.files)
    ensures key !in c && r.Some? ==> r.value == JoinPath(host.cwd, DefaultExecutable(tool, host))
    ensures key in c ==> (r.Some? <==> c[key].Str? && JoinPath(host.cwd, ParsePath(c[key].s)) in l.files)
    ensures key in c && r.Some? ==> r.value == JoinPath(host.cwd, ParsePath(c[key].s))
  {
    var arg :=
      if key !in c then Some(DefaultExecutable(tool, host))
      else match c[key]
        case Str(s) => Some(ParsePath(s))
        case _ => None;
    if arg.None? then None
    else
      var p := JoinPath(host.cwd, arg.value);
      if p in l.files then Some(p) else None
  }

  function UrlField(c: Config): (r: Option<string>)
    ensures r.Some? ==> IsHttpUrl(r.value) && "repository_url" in c && c["repository_url"] == Str(r.value)
  {
    match Get(c, "repository_url")
    case Str(s) => if IsHttpUrl(s) then Some(s) else None
    case _ => None
  }

  function AllStrings(items: seq<Value>): (r: Option<seq<string>>)
    ensures r.Some? ==> |r.value| == |items| && forall i | 0 <= i < |items| :: items[i] == Str(r.value[i])
    ensures (forall i | 0 <= i < |items| :: items[i].Str?) ==> r.Some?
    decreases |items|
  {
    if |items| == 0 then Some([])
    else match items[0]
      case Str(s) =>
        var rest := AllStrings(items[1..]);
        if rest.None? then None else Some([s] + rest.value)
      case _ => None
  }

  /** A `Sequence[str]` field: a single string is refused, not split. */
  function LanguagesField(c: Config): (r: Option<seq<string>>)
    ensures "selected_languages" !in c ==> r == Some([])
    ensures "selected_languages" in c && c["selected_languages"].Str? ==> r.None?
    ensures "selected_languages" in c && r.Some? ==>
      && c["selected_languages"].Array?
      && var items := c["selected_languages"].items;
      |r.value| == |items| && forall i | 0 <= i < |items| :: items[i] == Str(r.value[i])
    ensures ("selected_languages" in c && c["selected_languages"].Array? &&
             forall i | 0 <= i < |c["selected_languages"].items| :: c["selected_languages"].items[i].Str?) ==> r.Some?
  {
    if "selected_languages" !in c then Some([])
    else match c["selected_languages"]
      case Array(items) => AllStrings(items)
      case _ => None
  }

  /** An `Optional[float]` field bounded to [0, 100]; a boolean reads as 0 or 1. */
  function MinimumField(c: Config): (r: Option<Option<real>>)
    ensures r.Some? ==> ValidRatio(r.value)
    ensures Get(c, "minimum_translation") == Null ==> r == Some(None)
    ensures Get(c, "minimum_translation").Num? ==>
      var n := Get(c, "minimum_translation").n;
      r == if 0.0 <= n <= 100.0 then Some(Some(n)) else None
  {
    match Get(c, "minimum_translation")
    case Null => Some(None)
    case Num(n) => if 0.0 <= n <= 100.0 then Some(Some(n)) else None
    case Bool(b) => Some(Some(if b then 1.0 else 0.0))
    case _ => None
  }

  /** Each field of `Parameters` as validated on its own. */
  datatype Fields = Fields(
    rootdir: Option<Path>,
    pluginSource: Option<PathArg>,
    organization: Option<string>,
    project: Option<string>,
    resource: Option<string>,
    sourceLang: Option<string>,
    lrelease: Option<Path>,
    pylupdate5: Option<Path>,
    repositoryUrl: Option<string>,
    selectedLanguages: Option<seq<string>>,
    minimumTranslation: Option<Option<real>>)
  {
    predicate AllValid()
    {
      && rootdir.Some? && pluginSource.Some? && organization.Some? && project.Some?
      && resource.Some? && sourceLang.Some? && lrelease.Some? && pylupdate5.Some?
      && repositoryUrl.Some? && selectedLanguages.Some? && minimumTranslation.Some?
    }
  }

  function ValidateFields(c: Config, l: Local, host: Host): Fields
  {
    Fields(
      RootField(c),
      PluginSourceField(c),
      TextField(c, "organization", None),
      TextField(c, "project", None),
      TextField(c, "resource", None),
      TextField(c, "source_lang", Some("en")),
      ExecutableField(c, "lrelease_executable", "lrelease", l, host),
      ExecutableField(c, "pylupdate5_executable", "pylupdate5", l, host),
      UrlField(c),
      LanguagesField(c),
      MinimumField(c))
  }

  /** The names of the fields that failed. */
  function Failing(f: Fields): (r: set<string>)
    ensures r == {} <==> f.AllValid()
    ensures r <= FieldNames
  {
    FailingLocation(f) + FailingIdentity(f) + FailingTools(f) + FailingSelection(f)
  }

  function FailingLocation(f: Fields): (r: set<string>)
    ensures "plugin_source" in r <==> f.pluginSource.None?
    ensures "rootdir" in r <==> f.rootdir.None?
    ensures r == {} <==> f.rootdir.Some? && f.pluginSource.Some?
    ensures r <= LocationFields
  {
    (if f.rootdir.None? then {"rootdir"} else {})
    + (if f.pluginSource.None? then {"plugin_source"} else {})
  }

  function FailingIdentity(f: Fields): (r: set<string>)
    ensures "source_lang" in r <==> f.sourceLang.None?
    ensures "resource" in r <==> f.resource.None?
    ensures "project" in r <==> f.project.None?
    ensures "organization" in r <==> f.organization.None?
    ensures r == {} <==> f.organization.Some? && f.project.Some? && f.resource.Some? && f.sourceLang.Some?
    ensures r <= IdentityFields
  {
    (if f.organization.None? then {"organization"} else {})
    + (if f.project.None? then {"project"} else {})
    + (if f.resource.None? then {"resource"} else {})
    + (if f.sourceLang.None? then {"source_lang"} else {})
  }

  function FailingTools(f: Fields): (r: set<string>)
    ensures "repository_url" in r <==> f.repositoryUrl.None?
    ensures "pylupdate5_executable" in r <==> f.pylupdate5.None?
    ensures "lrelease_executable" in r <==> f.lrelease.None?
    ensures r == {} <==> f.lrelease.Some? && f.pylupdate5.Some? && f.repositoryUrl.Some?
    ensures r <= ToolFields
  {
    (if f.lrelease.None? then {"lrelease_executable"} else {})
    + (if f.pylupdate5.None? then {"pylupdate5_executable"} else {})
    + (if f.repositoryUrl.None? then {"repository_url"} else {})
  }

  function FailingSelection(f: Fields): (r: set<string>)
    ensures "minimum_translation" in r <==> f.minimumTranslation.None?
    ensures "selected_languages" in r <==> f.selectedLanguages.None?
    ensures r == {} <==> f.selectedLanguages.Some? && f.minimumTranslation.Some?
    ensures r <= SelectionFields
  {
    (if f.selectedLanguages.None? then {"selected_languages"} else {})
    + (if f.minimumTranslation.None? then {"minimum_translation"} else {})
  }

  /** Keys that are not fields of `Parameters` (refused: `extra="forbid"`). */
  function Extra(c: Config): (r: set<string>)
    ensures forall k | k in c :: k in r <==> k !in FieldNames
    ensures forall k | k in r :: k in c
  {
    set k | k in c && k !in FieldNames
  }

  /** `Parameters.model_validate(config)`: every failing field is reported together. */
  function Validate(c: Config, l: Local, host: Host): (r: Result<Parameters>)
    ensures r.Ok? <==> Extra(c) == {} && ValidateFields(c, l, host).AllValid()
    ensures r.Err? ==> r.error == Invalid(Extra(c) + Failing(ValidateFields(c, l, host)))
    ensures (exists k | k in c :: k !in FieldNames) ==> r.Err?
    ensures r.Ok? ==>
      var p := r.value;
      && "rootdir" in c && c["rootdir"] == PathValue(p.rootdir)
      && "organization" in c && c["organization"] == Str(p.organization)
      && "project" in c && c["project"] == Str(p.project)
      && "resource" in c && c["resource"] == Str(p.resource)
      && "repository_url" in c && c["repository_url"] == Str(p.repositoryUrl)
      && IsHttpUrl(p.repositoryUrl)
      && "plugin_source" in c && c["plugin_source"].Str? && p.pluginSource == ParsePath(c["plugin_source"].s)
      && ("source_lang" !in c ==> p.sourceLang == "en")
      && ("source_lang" in c ==> c["source_lang"] == Str(p.sourceLang))
      && ("selected_languages" !in c ==> p.selectedLanguages == [])
      && p.lrelease in l.files && p.pylupdate5 in l.files
      && ("lrelease_executable" !in c ==> p.lrelease == JoinPath(host.cwd, DefaultExecutable("lrelease", host)))
      && ("lrelease_executable" in c ==> p.lrelease == JoinPath(host.cwd, ParsePath(c["lrelease_executable"].s)))
      && ("pylupdate5_executable" !in c ==> p.pylupdate5 == JoinPath(host.cwd, DefaultExecutable("pylupdate5", host)))
      && ("pylupdate5_executable" in c ==> p.pylupdate5 == JoinPath(host.cwd, ParsePath(c["pylupdate5_executable"].s)))
      && ("selected_languages" in c ==>
            && c["selected_languages"].Array?
            && |p.selectedLanguages| == |c["selected_languages"].items|
            && forall i | 0 <= i < |p.selectedLanguages| :: c["selected_languages"].items[i] == Str(p.selectedLanguages[i]))
      && ValidRatio(p.minimumTranslation)
      && (Get(c, "minimum_translation") == Null ==> p.minimumTranslation == None)
      && (Get(c, "minimum_translation").Num? ==> p.minimumTranslation == Some(Get(c, "minimum_translation").n))
  {
    var f := ValidateFields(c, l, host);
    var failing := Extra(c) + Failing(f);
    if failing != {} then Err(Invalid(failing))
    else
      Ok(Parameters(
        f.rootdir.value, f.pluginSource.value, f.organization.value, f.project.value, f.resource.value,
        f.sourceLang.value, f.lrelease.value, f.pylupdate5.value, f.repositoryUrl.value,
        f.selectedLanguages.value, f.minimumTranslation.value))
  }

  /** `load_parameters(rootdir)`. */
  function LoadParameters(rootArg: Option<Path>, l: Local, host: Host): (r: Result<Parameters>)
    ensures FindConfigFile(RootOf(rootArg, host), l).None? ==> r == Err(ConfigNotFound)
    ensures r.Ok? ==> r.value.rootdir == RootOf(rootArg, host) && ValidRatio(r.value.minimumTranslation)
    ensures ConfigSection(RootOf(rootArg, host), l, host).Err? ==>
      r == Err(ConfigSection(RootOf(rootArg, host), l, host).error)
    ensures
      var root := RootOf(rootArg, host);
      var section := ConfigSection(root, l, host);
      r.Ok? <==>
        && section.Ok?
        && WithDefaults(section.value, root, host).Ok?
        && Extra(WithDefaults(section.value, root, host).value) == {}
        && ValidateFields(WithDefaults(section.value, root, host).value, l, host).AllValid()
  {
    var root := RootOf(rootArg, host);
    var section :- ConfigSection(root, l, host);
    var config :- WithDefaults(section, root, host);
    Validate(config, l, host)
  }

  /** The defaulting rules, stated on the table read from the file and the
      validated result. */
  lemma ValidatedDefaults(section: Config, root: Path, l: Local, host: Host)
    requires WithDefaults(section, root, host).Ok?
    requires Validate(WithDefaults(section, root, host).value, l, host).Ok?
    ensures
      var p := Validate(WithDefaults(section, root, host).value, l, host).value;
      && "project" in section && Str(p.project) == section["project"]
      && (Truthy(Get(section, "resource")) ==> Str(p.resource) == section["resource"])
      && (!Truthy(Get(section, "resource")) ==> p.resource == p.project)
      && "plugin_source" in section
      && (Truthy(Get(section, "repository_url")) ==> Str(p.repositoryUrl) == section["repository_url"])
      && (!Truthy(Get(section, "repository_url")) ==>
            MetadataRepository(root, section["plugin_source"], host) == Ok(p.repositoryUrl))
      && section["plugin_source"].Str?
      && PluginPath(p) == JoinPath(root, ParsePath(section["plugin_source"].s))
  {
    var c := WithDefaults(section, root, host).value;
    var p := Validate(c, l, host).value;
    assert "project" in c && c["project"] == Str(p.project);
    assert "project" in section;
    assert c["project"] == section["project"];
    assert c["plugin_source"] == section["plugin_source"];
    assert c["rootdir"] == PathValue(root);
  }

  /** How the loaded parameters relate to the table read from the file:
      `resource` falls back to `project`, `repository_url` to the metadata
      file, and the plugin path is the plugin source below the root. */
  lemma LoadParametersDefaults(rootArg: Option<Path>, l: Local, host: Host)
    requires LoadParameters(rootArg, l, host).Ok?
    ensures
      var root := RootOf(rootArg, host);
      var section := ConfigSection(root, l, host);
      var p := LoadParameters(rootArg, l, host).value;
      && section.Ok?
      && "project" in section.value && Str(p.project) == section.value["project"]
      && (Truthy(Get(section.value, "resource")) ==> Str(p.resource) == section.value["resource"])
      && (!Truthy(Get(section.value, "resource")) ==> p.resource == p.project)
      && "plugin_source" in section.value
      && (Truthy(Get(section.value, "repository_url")) ==> Str(p.repositoryUrl) == section.value["repository_url"])
      && (!Truthy(Get(section.value, "repository_url")) ==>
            MetadataRepository(root, section.value["plugin_source"], host) == Ok(p.repositoryUrl))
      && section.value["plugin_source"].Str?
      && PluginPath(p) == JoinPath(root, ParsePath(section.value["plugin_source"].s))
  {
    var root := RootOf(rootArg, host);
    var section := ConfigSection(root, l, host).value;
    ValidatedDefaults(section, root, l, host);
  }
}

=== FILE: paths.dfy ===
/**
 Filesystem paths and the local filesystem, abstracted as a map from file
 paths to their text and a set of directories. Only what the workflow needs:
 `joinpath`, `mkdir(parents=True, exist_ok=True)`, writing files, and the
 two glob shapes the workflow uses.
 */
module Paths {
  import opened Text

  /** An absolute path, as its components below the filesystem root. */
  type Path = seq<string>

  /** A path as written in configuration, after pathlib's parsing: whether it
      is absolute, and its components with empty and `.` components dropped. */
  datatype PathArg = PathArg(absolute: bool, parts: seq<string>)

  /** Drops the empty and `.` pieces of a `/`-split, as pathlib does. */
  function Components(pieces: seq<string>): (r: seq<string>)
    ensures forall i | 0 <= i < |r| :: r[i] != "" && r[i] != "." && r[i] in pieces
    ensures forall x | x in pieces && x != "" && x != "." :: x in r
    decreases |pieces|
  {
    if |pieces| == 0 then []
    else if pieces[0] == "" || pieces[0] == "." then Components(pieces[1..])
    else [pieces[0]] + Components(pieces[1..])
  }

  /** pathlib's `Path(s)`. */
  function ParsePath(s: string): (a: PathArg)
    ensures a.absolute <==> StartsWith(s, "/")
    ensures forall i | 0 <= i < |a.parts| :: a.parts[i] != "" && a.parts[i] != "." && '/' !in a.parts[i]
  {
    SplitParts(s, '/');
    PathArg(StartsWith(s, "/"), Components(Split(s, '/')))
  }

  /** Components that pathlib keeps as they are: non-empty, not `.`, without `/`. */
  predicate Clean(q: seq<string>)
  {
    forall i | 0 <= i < |q| :: q[i] != "" && q[i] != "." && '/' !in q[i]
  }

  lemma {:induction false} ComponentsClean(q: seq<string>)
    requires Clean(q)
    ensures Components(q) == q
    decreases |q|
  {
    if |q| > 0 {
      ComponentsClean(q[1..]);
    }
  }

  /** A rendered path parses back to the same absolute path. */
  lemma ParsePathRender(q: Path)
    requires Clean(q)
    ensures ParsePath(Render(q)) == PathArg(true, q)
  {
    var parts := if |q| == 0 then ["", ""] else [""] + q;
    assert Join(parts, '/') == Render(q) by {
      if |q| > 0 {
        assert parts[1..] == q;
      }
    }
    SplitJoin(parts, '/');
    ComponentsClean(q);
    assert Components(parts) == Components(parts[1..]);
    if |q| > 0 {
      assert parts[1..] == q;
    } else {
      assert Components(parts[1..]) == Components(parts[2..]);
    }
  }

  /** Components joined by `/` parse back to the same relative path. */
  lemma ParsePathRelative(q: seq<string>)
    requires Clean(q) && |q| >= 1
    ensures ParsePath(Join(q, '/')) == PathArg(false, q)
  {
    SplitJoin(q, '/');
    ComponentsClean(q);
    assert Join(q, '/')[0] == q[0][0];
  }

  /** `base.joinpath(a)`: an absolute argument replaces the base. */
  function JoinPath(base: Path, a: PathArg): (p: Path)
    ensures a.absolute ==> p == a.parts
    ensures !a.absolute ==> |p| == |base| + |a.parts| && p[..|base|] == base && p[|base|..] == a.parts
  {
    if a.absolute then a.parts else base + a.parts
  }

  /** `base.joinpath(name)` for a single component `name`. */
  function Child(base: Path, name: string): Path
  {
    base + [name]
  }

  /** `str(path)`. */
  function Render(p: Path): string
  {
    "/" + Join(p, '/')
  }

  /** The local filesystem: the text of every file, and the directories. */
  datatype Local = Local(files: map<Path, string>, dirs: set<Path>)
  {
    /** `Path.exists()`: a file or a directory. */
    predicate Exists(p: Path)
    {
      p in files || p in dirs
    }
  }

  /** `d` and all of its non-root ancestors. */
  function Ancestors(d: Path): set<Path>
  {
    set k | 1 <= k <= |d| :: d[..k]
  }

  /** A file stands at `d` or at one of its ancestors, so no directory can be made there. */
  predicate Blocked(l: Local, d: Path)
  {
    exists k | 1 <= k <= |d| :: d[..k] in l.files
  }

  /** The filesystem once `d.mkdir(parents=True, exist_ok=True)` has succeeded. */
  function AddDirs(l: Local, d: Path): (l': Local)
    ensures |d| > 0 ==> l'.Exists(d)
    ensures l'.files == l.files
    ensures forall p | l.Exists(p) :: l'.Exists(p)
    ensures forall p | l'.Exists(p) && !l.Exists(p) :: |p| <= |d| && p == d[..|p|]
  {
    assert |d| > 0 ==> d[..|d|] == d;
    l.(dirs := l.dirs + Ancestors(d))
  }

  /** Writes every file of `writes`, replacing what was there. */
  function WriteAll(l: Local, writes: map<Path, string>): (l': Local)
    ensures l'.dirs == l.dirs
    ensures forall p | p in writes :: p in l'.files && l'.files[p] == writes[p]
    ensures forall p | p !in writes :: (p in l'.files <==> p in l.files) && (p in l.files ==> l'.files[p] == l.files[p])
  {
    l.(files := l.files + writes)
  }

  /** `p` is strictly below `base` and its name ends with `ext`: a match of the recursive glob of `*<ext>` under `base`. */
  predicate DeepMatch(p: Path, base: Path, ext: string)
  {
    |p| > |base| && p[..|base|] == base && EndsWith(p[|p| - 1], ext)
  }

  /** `p` is directly inside `dir` and its name ends with `ext`: a match of `dir.glob("*<ext>")`. */
  predicate ChildMatch(p: Path, dir: Path, ext: string)
  {
    |p| == |dir| + 1 && p[..|dir|] == dir && EndsWith(p[|dir|], ext)
  }

  /** The rendered matches of the recursive glob of `*<ext>` under `base`, in ascending order. */
  function GlobDeep(l: Local, base: Path, ext: string): (r: seq<string>)
    ensures Increasing(r)
    ensures forall x :: x in r <==> exists p | l.Exists(p) && DeepMatch(p, base, ext) :: x == Render(p)
  {
    SortSet(set p | p in l.files.Keys + l.dirs && DeepMatch(p, base, ext) :: Render(p))
  }

  /** The rendered matches of `dir.glob("*<ext>")`, in ascending order. */
  function GlobChildren(l: Local, dir: Path, ext: string): (r: seq<string>)
    ensures Increasing(r)
    ensures forall x :: x in r <==> exists p | l.Exists(p) && ChildMatch(p, dir, ext) :: x == Render(p)
  {
    SortSet(set p | p in l.files.Keys + l.dirs && ChildMatch(p, dir, ext) :: Render(p))
  }
}

=== FILE: results.dfy ===
/**
 Optional values, the errors the program raises, and results that carry
 either a value or one of those errors.
 */
module Results {
  import opened Text
  import opened Paths

  datatype Option<+T> = None | Some(value: T)

  /** Every exception the modelled code raises. The first group are the
      program's own `TranslationError`s; the rest propagate uncaught. */
  datatype Error =
    // TranslationError
    | OrganizationNotRegistered(org: string)
    | ProjectCreateFailed(project: string)
    | ProjectNotFound(project: string)
    | ResourceNotFound(resource: string)
    | SourceFileMissing(path: Path)
    | ToolFailed(tool: string, code: int, stdout: string, stderr: string)
    | SourceFileNotCreated(path: Path)
    | NoTsFiles(dir: Path)
    | RepositoryUrlRequired
    | ListedProjectNotFound(project: string)
    // FileNotFoundError from `load_parameters`
    | ConfigNotFound
    // the configuration file exists but cannot be read as TOML
    | Unreadable(path: Path)
    // a configuration entry that must be a table is not (AttributeError)
    | NotATable(key: string)
    // KeyError
    | MissingKey(key: string)
    // TypeError: a path component of the wrong type
    | WrongType(key: string)
    // configparser.NoSectionError / NoOptionError
    | NoSection(section: string)
    | NoOption(section: string, option: string)
    // pydantic ValidationError, naming every field that failed
    | Invalid(fields: set<string>)
    // DoesNotExist from the remote service, not converted to None
    | RemoteNotFound(kind: string, slug: string)
    // the remote service refuses to create a second entity with the same slug
    | RemoteConflict(slug: string)
    // IsADirectoryError when reading or writing a path that is a directory
    | NotAFile(path: Path)
    // FileExistsError from `mkdir` when a file stands where the directory goes
    | FileExists(path: Path)
    // NotADirectoryError from `mkdir` when a file stands where an ancestor directory goes
    | NotADirectory(path: Path)
  {
    predicate IsTranslationError()
    {
      || OrganizationNotRegistered? || ProjectCreateFailed? || ProjectNotFound?
      || ResourceNotFound? || SourceFileMissing? || ToolFailed?
      || SourceFileNotCreated? || NoTsFiles? || RepositoryUrlRequired?
      || ListedProjectNotFound?
    }
  }

  /** The text of a `TranslationError`, as the program formats it. */
  function Message(e: Error): string
    requires e.IsTranslationError()
  {
    match e
    case OrganizationNotRegistered(org) => "The organization '" + org + "' is no registered"
    case ProjectCreateFailed(project) => "Failed to create project '" + project + "'"
    case ProjectNotFound(project) => "Failed to get project '" + project + "'"
    case ResourceNotFound(resource) => "Resource " + resource + " does not exists"
    case SourceFileMissing(path) => "The file " + Render(path) + " does not exists"
    case ToolFailed(tool, code, out, err) =>
      tool + " command failed with return code " + IntToString(code) + "\n" + out + err
    case SourceFileNotCreated(path) => "Could not create " + Render(path)
    case NoTsFiles(dir) => "No TS files found in " + Render(dir)
    case RepositoryUrlRequired => "A " + "repository url" + " is required for public projects"
    case ListedProjectNotFound(project) => "Project " + project + " not found"
  }

  /** What a `TranslationError` is about: the entity, file or directory it names. */
  function Subject(e: Error): string
    requires e.IsTranslationError()
  {
    match e
    case OrganizationNotRegistered(org) => org
    case ProjectCreateFailed(project) => project
    case ProjectNotFound(project) => project
    case ResourceNotFound(resource) => resource
    case SourceFileMissing(path) => Render(path)
    case ToolFailed(tool, _, _, _) => tool
    case SourceFileNotCreated(path) => Render(path)
    case NoTsFiles(dir) => Render(dir)
    case RepositoryUrlRequired => "repository url"
    case ListedProjectNotFound(project) => project
  }

  predicate Mentions(text: string, part: string)
  {
    exists i | 0 <= i <= |text| :: OccursAt(text, part, i)
  }

  lemma OccursInConcat(a: string, b: string, c: string)
    ensures OccursAt(a + b + c, b, |a|)
  {
    assert (a + b + c)[|a|..|a| + |b|] == b;
  }

  lemma EndsWithConcat(a: string, b: string)
    ensures EndsWith(a + b, b)
  {
    assert (a + b)[|a|..] == b;
  }

  /** A failed tool's message names the tool, carries its return code and
      ends with its stdout and stderr. */
  lemma ToolFailedMessage(tool: string, code: int, out: string, err: string)
    ensures Mentions(Message(ToolFailed(tool, code, out, err)), tool)
    ensures Mentions(Message(ToolFailed(tool, code, out, err)), IntToString(code))
    ensures EndsWith(Message(ToolFailed(tool, code, out, err)), out + err)
  {
    ToolFailedNamesTool(tool, code, out, err);
    ToolFailedNamesCode(tool, code, out, err);
    ToolFailedEndsWithOutput(tool, code, out, err);
  }

  lemma ToolFailedNamesTool(tool: string, code: int, out: string, err: string)
    ensures Mentions(Message(ToolFailed(tool, code, out, err)), tool)
  {
    var m := Message(ToolFailed(tool, code, out, err));
    assert m == tool + (" command failed with return code " + IntToString(code) + "\n" + out + err);
    assert m[0..|tool|] == tool;
    assert OccursAt(m, tool, 0);
  }

  lemma ToolFailedNamesCode(tool: string, code: int, out: string, err: string)
    ensures Mentions(Message(ToolFailed(tool, code, out, err)), IntToString(code))
  {
    var head := tool + " command failed with return code ";
    var digits := IntToString(code);
    assert Message(ToolFailed(tool, code, out, err)) == head + digits + ("\n" + out + err);
    OccursInConcat(head, digits, "\n" + out + err);
  }

  lemma ToolFailedEndsWithOutput(tool: string, code: int, out: string, err: string)
    ensures EndsWith(Message(ToolFailed(tool, code, out, err)), out + err)
  {
    var head := tool + " command failed with return code " + IntToString(code) + "\n";
    assert Message(ToolFailed(tool, code, out, err)) == head + (out + err);
    EndsWithConcat(head, out + err);
  }

  /** Every `TranslationError` message names its subject. */
  lemma MessageNamesSubject(e: Error)
    requires e.IsTranslationError()
    ensures Mentions(Message(e), Subject(e))
  {
    match e
    case OrganizationNotRegistered(org) => OccursInConcat("The organization '", org, "' is no registered");
    case ProjectCreateFailed(project) => OccursInConcat("Failed to create project '", project, "'");
    case ProjectNotFound(project) => OccursInConcat("Failed to get project '", project, "'");
    case ResourceNotFound(resource) => OccursInConcat("Resource ", resource, " does not exists");
    case SourceFileMissing(path) => OccursInConcat("The file ", Render(path), " does not exists");
    case ToolFailed(tool, code, out, err) => ToolFailedMessage(tool, code, out, err);
    case SourceFileNotCreated(path) =>
      OccursInConcat("Could not create ", Render(path), "");
      assert Message(e) == "Could not create " + Render(path) + "";
    case NoTsFiles(dir) =>
      OccursInConcat("No TS files found in ", Render(dir), "");
      assert Message(e) == "No TS files found in " + Render(dir) + "";
    case RepositoryUrlRequired =>
      OccursInConcat("A ", "repository url", " is required for public projects");
    case ListedProjectNotFound(project) => OccursInConcat("Project ", project, " not found");
  }

  datatype Result<+T> = Ok(value: T) | Err(error: Error)
  {
    predicate IsFailure()
    {
      Err?
    }

    function PropagateFailure<U>(): Result<U>
      requires Err?
    {
      Err(error)
    }

    function Extract(): T
      requires Ok?
    {
      value
    }
  }
}

=== FILE: text.dfy ===
/**
 Text helpers the model needs, each stated the way Python's `str` behaves:
 code-point ordering (`<` on `str`, hence `sorted`), `str.split(sep)` with an
 explicit one-character separator, `sep.join`, `str.partition`, and the
 decimal rendering of an `int`.
 */
module Text {

  /* ---------------------------------------------------------------------- */
  /* Ordering                                                               */
  /* ---------------------------------------------------------------------- */

  /** Strict lexicographic order by code point, as Python compares `str` values. */
  predicate Below(a: string, b: string)
    decreases |a|
  {
    if |a| == 0 then |b| > 0
    else if |b| == 0 then false
    else if a[0] != b[0] then a[0] < b[0]
    else Below(a[1..], b[1..])
  }

  lemma {:induction false} BelowIrreflexive(a: string)
    ensures !Below(a, a)
    decreases |a|
  {
    if |a| > 0 {
      BelowIrreflexive(a[1..]);
    }
  }

  lemma {:induction false} BelowAsymmetric(a: string, b: string)
    requires Below(a, b)
    ensures !Below(b, a)
    decreases |a|
  {
    if |a| > 0 && |b| > 0 && a[0] == b[0] {
      BelowAsymmetric(a[1..], b[1..]);
    }
  }

  lemma {:induction false} BelowTransitive(a: string, b: string, c: string)
    requires Below(a, b) && Below(b, c)
    ensures Below(a, c)
    decreases |a|
  {
    if |a| > 0 && a[0] == b[0] && b[0] == c[0] {
      BelowTransitive(a[1..], b[1..], c[1..]);
    }
  }

  lemma {:induction false} BelowTotal(a: string, b: string)
    ensures a == b || Below(a, b) || Below(b, a)
    decreases |a|
  {
    if |a| > 0 && |b| > 0 && a[0] == b[0] {
      BelowTotal(a[1..], b[1..]);
      if a[1..] == b[1..] {
        assert a == [a[0]] + a[1..] && b == [b[0]] + b[1..];
      }
    }
  }

  /** `m` is the least element of `s`. */
  predicate IsLeast(m: string, s: set<string>)
  {
    m in s && forall y | y in s :: y == m || Below(m, y)
  }

  lemma {:induction false} LeastExists(s: set<string>)
    requires s != {}
    ensures exists m :: IsLeast(m, s)
    decreases |s|
  {
    var x :| x in s;
    var rest := s - {x};
    if rest == {} {
      assert s == {x};
      assert IsLeast(x, s);
    } else {
      LeastExists(rest);
      var m :| IsLeast(m, rest);
      BelowTotal(x, m);
      if Below(x, m) {
        forall y | y in s
          ensures y == x || Below(x, y)
        {
          if y != x {
            assert y == m || Below(m, y);
            if y != m {
              BelowTransitive(x, m, y);
            }
          }
        }
        assert IsLeast(x, s);
      } else {
        assert IsLeast(m, s);
      }
    }
  }

  lemma LeastUnique(s: set<string>)
    ensures forall m, m' :: IsLeast(m, s) && IsLeast(m', s) ==> m == m'
  {
    forall m, m' | IsLeast(m, s) && IsLeast(m', s)
      ensures m == m'
    {
      if m != m' {
        assert Below(m, m');
        BelowAsymmetric(m, m');
      }
    }
  }

  /** The least string of a non-empty set; it is unique because `Below` is a strict total order. */
  function Least(s: set<string>): (m: string)
    requires s != {}
    ensures IsLeast(m, s)
  {
    LeastExists(s);
    LeastUnique(s);
    var m :| IsLeast(m, s);
    m
  }

  /** Every earlier element is below every later one (so there are no repeats). */
  predicate Increasing(r: seq<string>)
  {
    forall i, j | 0 <= i < j < |r| :: Below(r[i], r[j])
  }

  /** Python's `sorted(s)` for a set of strings. */
  function SortSet(s: set<string>): (r: seq<string>)
    ensures Increasing(r)
    ensures forall x :: x in r <==> x in s
    ensures |r| == |s|
    decreases |s|
  {
    if s == {} then []
    else
      var m := Least(s);
      var rest := SortSet(s - {m});
      assert forall j | 0 <= j < |rest| :: Below(m, rest[j]) by {
        forall j | 0 <= j < |rest|
          ensures Below(m, rest[j])
        {
          assert rest[j] in s - {m};
        }
      }
      [m] + rest
  }

  /* ---------------------------------------------------------------------- */
  /* Prefixes and suffixes                                                  */
  /* ---------------------------------------------------------------------- */

  predicate StartsWith(s: string, prefix: string)
  {
    |prefix| <= |s| && s[..|prefix|] == prefix
  }

  predicate EndsWith(s: string, suffix: string)
  {
    |suffix| <= |s| && s[|s| - |suffix|..] == suffix
  }

  /* ---------------------------------------------------------------------- */
  /* split / join on one separator character                                */
  /* ---------------------------------------------------------------------- */

  /** Python's `s.split(sep)` for a one-character `sep`: every occurrence
      separates two parts, so there is always one more part than separators. */
  function Split(s: string, sep: char): (parts: seq<string>)
    ensures |parts| >= 1
    decreases |s|
  {
    if |s| == 0 then [""]
    else
      var rest := Split(s[1..], sep);
      if s[0] == sep then [""] + rest
      else [[s[0]] + rest[0]] + rest[1..]
  }

  /** Python's `sep.join(parts)`. */
  function Join(parts: seq<string>, sep: char): string
    decreases |parts|
  {
    if |parts| == 0 then ""
    else if |parts| == 1 then parts[0]
    else parts[0] + [sep] + Join(parts[1..], sep)
  }

  /** Number of occurrences of `c` in `s`. */
  function Count(s: string, c: char): nat
  {
    if |s| == 0 then 0 else (if s[0] == c then 1 else 0) + Count(s[1..], c)
  }

  /** No part of a split contains the separator, and there is one part more
      than there are separators. */
  lemma {:induction false} SplitParts(s: string, sep: char)
    ensures forall i | 0 <= i < |Split(s, sep)| :: sep !in Split(s, sep)[i]
    ensures |Split(s, sep)| == Count(s, sep) + 1
    decreases |s|
  {
    if |s| > 0 {
      SplitParts(s[1..], sep);
    }
  }

  /** Joining the parts of a split with the same separator restores the string. */
  lemma {:induction false} JoinSplit(s: string, sep: char)
    ensures Join(Split(s, sep), sep) == s
    decreases |s|
  {
    if |s| > 0 {
      var rest := Split(s[1..], sep);
      JoinSplit(s[1..], sep);
      if s[0] == sep {
        assert Split(s, sep) == [""] + rest;
        assert Join([""] + rest, sep) == "" + [sep] + Join(rest, sep);
        assert [sep] + s[1..] == s;
      } else {
        var parts := [[s[0]] + rest[0]] + rest[1..];
        assert Split(s, sep) == parts;
        if |rest| == 1 {
          assert Join(parts, sep) == [s[0]] + rest[0];
          assert [s[0]] + s[1..] == s;
        } else {
          assert parts[1..] == rest[1..];
          assert Join(parts, sep) == [s[0]] + rest[0] + [sep] + Join(rest[1..], sep);
          assert Join(rest, sep) == rest[0] + [sep] + Join(rest[1..], sep);
          assert [s[0]] + s[1..] == s;
        }
      }
    }
  }

  /** Splitting `p + t` where `p` holds no separator glues `p` onto the first part of `t`'s split. */
  lemma {:induction false} SplitGlue(p: string, t: string, sep: char)
    requires sep !in p
    ensures Split(p + t, sep) == [p + Split(t, sep)[0]] + Split(t, sep)[1..]
    decreases |p|
  {
    if |p| > 0 {
      SplitGlue(p[1..], t, sep);
      assert (p + t)[1..] == p[1..] + t;
      assert (p + t)[0] == p[0];
      assert [p[0]] + (p[1..] + Split(t, sep)[0]) == p + Split(t, sep)[0];
    } else {
      assert p + t == t;
      assert p + Split(t, sep)[0] == Split(t, sep)[0];
      assert Split(t, sep) == [Split(t, sep)[0]] + Split(t, sep)[1..];
    }
  }

  /** Splitting a join gives the parts back, provided no part contains the separator. */
  lemma {:induction false} SplitJoin(parts: seq<string>, sep: char)
    requires |parts| >= 1
    requires forall i | 0 <= i < |parts| :: sep !in parts[i]
    ensures Split(Join(parts, sep), sep) == parts
    decreases |parts|
  {
    if |parts| == 1 {
      SplitGlue(parts[0], "", sep);
      assert parts[0] + "" == parts[0];
    } else {
      var tail := Join(parts[1..], sep);
      SplitJoin(parts[1..], sep);
      SplitGlue(parts[0], [sep] + tail, sep);
      assert Join(parts, sep) == parts[0] + ([sep] + tail);
      assert ([sep] + tail)[1..] == tail;
      assert Split([sep] + tail, sep) == [""] + parts[1..];
      assert parts[0] + "" == parts[0];
      assert parts == [parts[0]] + parts[1..];
    }
  }

  /* ---------------------------------------------------------------------- */
  /* partition                                                              */
  /* ---------------------------------------------------------------------- */

  predicate OccursAt(s: string, sep: string, i: int)
  {
    0 <= i && i + |sep| <= |s| && s[i..i + |sep|] == sep
  }

  /** The first index at or after `from` where `sep` occurs in `s`. */
  function FindFrom(s: string, sep: string, from: nat): (r: int)
    requires |sep| > 0
    ensures r == -1 || (from <= r && OccursAt(s, sep, r))
    ensures r == -1 ==> forall j | from <= j :: !OccursAt(s, sep, j)
    ensures r != -1 ==> forall j | from <= j < r :: !OccursAt(s, sep, j)
    decreases |s| - from
  {
    if from + |sep| > |s| then -1
    else if s[from..from + |sep|] == sep then from
    else FindFrom(s, sep, from + 1)
  }

  /** Python's `s.find(sep)`: the first occurrence, or -1. */
  function Find(s: string, sep: string): (r: int)
    requires |sep| > 0
    ensures r == -1 <==> forall j :: !OccursAt(s, sep, j)
    ensures r != -1 ==> OccursAt(s, sep, r) && forall j | j < r :: !OccursAt(s, sep, j)
  {
    FindFrom(s, sep, 0)
  }

  /** Python's `s.partition(sep)`: the text before the first `sep`, the
      separator found, and the text after it; `(s, "", "")` when absent. */
  function Partition(s: string, sep: string): (r: (string, string, string))
    requires |sep| > 0
    ensures r.0 + r.1 + r.2 == s
    ensures r.1 == sep || r.1 == ""
    ensures r.1 == "" <==> forall j :: !OccursAt(s, sep, j)
    ensures r.1 == sep ==> OccursAt(s, sep, |r.0|) && forall j | j < |r.0| :: !OccursAt(s, sep, j)
  {
    var i := Find(s, sep);
    if i == -1 then (s, "", "")
    else
      assert s[..i] + sep + s[i + |sep|..] == s by {
        assert s == s[..i] + s[i..i + |sep|] + s[i + |sep|..];
      }
      (s[..i], sep, s[i + |sep|..])
  }

  /* ---------------------------------------------------------------------- */
  /* Decimal rendering of integers (`str(n)` / `f"{n}"`)                     */
  /* ---------------------------------------------------------------------- */

  predicate IsDigits(s: string)
  {
    forall i | 0 <= i < |s| :: '0' <= s[i] <= '9'
  }

  function NatToString(n: nat): (s: string)
    ensures |s| >= 1 && IsDigits(s)
    decreases n
  {
    var d := (48 + n % 10) as char;
    if n < 10 then [d] else NatToString(n / 10) + [d]
  }

  function DigitsValue(s: string): nat
    requires IsDigits(s)
    decreases |s|
  {
    if |s| == 0 then 0
    else DigitsValue(s[..|s| - 1]) * 10 + (s[|s| - 1] as int - 48)
  }

  function IntToString(i: int): string
  {
    if i < 0 then "-" + NatToString(-i) else NatToString(i)
  }

  /** Python's `int(s)` on what `str(i)` produces. */
  function ParseInt(s: string): int
  {
    if |s| > 0 && s[0] == '-' && IsDigits(s[1..]) then -(DigitsValue(s[1..]) as int)
    else if IsDigits(s) then DigitsValue(s)
    else 0
  }

  lemma {:induction false} NatToStringRoundTrip(n: nat)
    ensures DigitsValue(NatToString(n)) == n
    decreases n
  {
    var s := NatToString(n);
    if n >= 10 {
      NatToStringRoundTrip(n / 10);
      assert s[..|s| - 1] == NatToString(n / 10);
    }
  }

  /** The decimal text of an integer reads back as the same integer. */
  lemma IntToStringRoundTrip(i: int)
    ensures ParseInt(IntToString(i)) == i
  {
    if i < 0 {
      NatToStringRoundTrip(-i);
      assert IntToString(i)[1..] == NatToString(-i);
    } else {
      NatToStringRoundTrip(i);
    }
  }
}

=== FILE: workflow.dfy ===
/*
  The translation workflow: binding a plugin to its Transifex project, pulling
  translated TS files, pushing the source TS file, regenerating the source TS
  file with pylupdate5 and compiling TS files with lrelease.

  Every operation maps a `World` (the service and the local filesystem) to an
  `Outcome`: the result, the new world, and the trace of the calls made, in
  order. An external tool is an oracle: its exit code, its output and the
  files it writes are given as a `ToolRun`.
*/
module Workflow {
  import opened Text
  import opened Paths
  import opened Results
  import opened Settings
  import opened Client

  datatype World = World(remote: Remote, local: Local)

  /** One call made by an operation. */
  datatype Effect =
    | FetchOrganization(org: string)
    | FetchProject(slug: string)
    | ProjectCreated(slug: string)
    | FetchResource(slug: string)
    | ResourceCreated(slug: string)
    | FetchLanguages
    | FetchStats(slug: string)
    | Downloaded(lang: string, target: Path)
    | Uploaded(slug: string, text: string)
    | DirsMade(dir: Path)
    | FileWritten(path: Path, text: string)
    | Ran(argv: seq<string>)
  {
    /** The call only reads: it changes neither the service nor the filesystem. */
    predicate ReadOnly()
    {
      FetchOrganization? || FetchProject? || FetchResource? || FetchLanguages? || FetchStats?
    }

    /** The call changes what the service holds. */
    predicate ChangesService()
    {
      ProjectCreated? || ResourceCreated? || Uploaded?
    }
  }

  datatype Outcome<T> = Outcome(result: Result<T>, world: World, trace: seq<Effect>)

  /** What an external tool did when run: exit code, captured output, files written. */
  datatype ToolRun = ToolRun(code: int, stdout: string, stderr: string, writes: map<Path, string>)

  /** A `Translation` object: the state its constructor captures. */
  datatype Translation = Translation(
    org: string,
    project: string,
    pluginPath: Path,
    minimumTr: Option<real>,
    tsName: string,
    tsPath: Path)

  /** The translation's project exists on the service. */
  predicate Bound(t: Translation, remote: Remote)
  {
    t.org in remote.orgs && t.project in remote.orgs[t.org]
  }

  /* ---------------------------------------------------------------------- */
  /* File names                                                             */
  /* ---------------------------------------------------------------------- */

  function I18nDir(pluginPath: Path): Path
  {
    Child(pluginPath, "i18n")
  }

  /** The name of the TS file of `resource` in language `lang`. */
  function TsName(resource: string, lang: string): string
  {
    resource + "_" + lang + ".ts"
  }

  /** The language of a TS file name of `resource`, if it is one. */
  function TsLanguage(resource: string, name: string): Option<string>
  {
    if |name| >= |resource| + 4 && name[..|resource| + 1] == resource + "_" && name[|name| - 3..] == ".ts"
    then Some(name[|resource| + 1..|name| - 3])
    else None
  }

  lemma TsNameRoundTrip(resource: string, lang: string)
    ensures TsLanguage(resource, TsName(resource, lang)) == Some(lang)
  {
    var n := TsName(resource, lang);
    assert n[..|resource| + 1] == resource + "_";
    assert n[|n| - 3..] == ".ts";
    assert n[|resource| + 1..|n| - 3] == lang;
  }

  /** Where a language's TS file lands. */
  function Target(dir: Path, resource: string, lang: string): Path
  {
    Child(dir, TsName(resource, lang))
  }

  /** Different languages never share a TS file. */
  lemma TargetDistinct(dir: Path, resource: string, a: string, b: string)
    requires a != b
    ensures Target(dir, resource, a) != Target(dir, resource, b)
  {
    if Target(dir, resource, a) == Target(dir, resource, b) {
      assert TsName(resource, a) == Target(dir, resource, a)[|dir|];
      assert TsName(resource, b) == Target(dir, resource, b)[|dir|];
      TsNameRoundTrip(resource, a);
      TsNameRoundTrip(resource, b);
    }
  }

  /** `Translation.translation_file_path`: `<plugin>/i18n/<resource>_<source_lang>.ts`. */
  function TranslationFilePath(p: Parameters): (r: Path)
    ensures |r| == |PluginPath(p)| + 2
    ensures r[..|r| - 1] == I18nDir(PluginPath(p))
    ensures TsLanguage(p.resource, r[|r| - 1]) == Some(p.sourceLang)
  {
    TsNameRoundTrip(p.resource, p.sourceLang);
    Target(I18nDir(PluginPath(p)), p.resource, p.sourceLang)
  }

  /* ---------------------------------------------------------------------- */
  /* Construction                                                           */
  /* ---------------------------------------------------------------------- */

  /** `Translation(parameters, token, create_project)`. */
  function Construct(p: Parameters, createProject: bool, w: World): (o: Outcome<Translation>)
    ensures p.organization !in w.remote.orgs ==>
      o == Outcome(Err(OrganizationNotRegistered(p.organization)), w, [FetchOrganization(p.organization)])
    ensures p.organization in w.remote.orgs && p.project in w.remote.orgs[p.organization] ==>
      o.result.Ok? && o.world == w
    ensures p.organization in w.remote.orgs && p.project !in w.remote.orgs[p.organization] && !createProject ==>
      o.result == Err(ProjectNotFound(p.project)) && o.world == w
    ensures p.organization in w.remote.orgs && p.project !in w.remote.orgs[p.organization] && createProject ==>
      var c := CreateProject(w.remote, p.organization, p.project, p.sourceLang, false, Some(p.repositoryUrl));
      && (o.result.Ok? <==> c.result.Ok?)
      && (c.result.Err? ==> o.result == Err(c.result.error))
      && o.world.remote == c.remote
    ensures o.result.Err? ==> o.world == w
    ensures o.result.Ok? ==>
      && Bound(o.result.value, o.world.remote)
      && o.result.value.org == p.organization && o.result.value.project == p.project
      && o.result.value.tsPath == TranslationFilePath(p)
      && o.result.value.pluginPath == PluginPath(p)
      && o.result.value.tsName == p.resource
      && o.result.value.minimumTr == p.minimumTranslation
    ensures o.world.local == w.local
    ensures forall i | 0 <= i < |o.trace| :: o.trace[i].ReadOnly() || o.trace[i] == ProjectCreated(p.project)
    ensures ProjectCreated(p.project) in o.trace <==>
      o.result.Ok? && p.organization in w.remote.orgs && p.project !in w.remote.orgs[p.organization]
    ensures ProjectCreated(p.project) in o.trace ==>
      && p.organization in o.world.remote.orgs && p.project in o.world.remote.orgs[p.organization]
      && o.world.remote.orgs[p.organization][p.project].repositoryUrl == Some(p.repositoryUrl)
      && !o.world.remote.orgs[p.organization][p.project].isPrivate
  {
    var t := Translation(p.organization, p.project, PluginPath(p), p.minimumTranslation, p.resource, TranslationFilePath(p));
    var calls := [FetchOrganization(p.organization), FetchProject(p.project)];
    match Connect(w.remote, p.organization)
    case Err(e) => Outcome(Err(e), w, [FetchOrganization(p.organization)])
    case Ok(org) =>
      if FindProject(w.remote, org, p.project).Some? then Outcome(Ok(t), w, calls)
      else if !createProject then Outcome(Err(ProjectNotFound(p.project)), w, calls)
      else
        var c := CreateProject(w.remote, org, p.project, p.sourceLang, false, Some(p.repositoryUrl));
        if c.result.Err? then Outcome(Err(c.result.error), w, calls)
        else Outcome(Ok(t), w.(remote := c.remote), calls + [ProjectCreated(p.project)])
  }

  /* ---------------------------------------------------------------------- */
  /* Filesystem calls that can fail                                         */
  /* ---------------------------------------------------------------------- */

  /** `d.mkdir(parents=True, exist_ok=True)`: a file standing at an ancestor of
      `d` raises NotADirectoryError, a file at `d` itself FileExistsError; an
      existing directory is accepted. */
  function MakeDirs(l: Local, d: Path): (r: Result<Local>)
    ensures r.Ok? <==> !Blocked(l, d)
    ensures r.Ok? ==> r.value.files == l.files && r.value.dirs == l.dirs + Ancestors(d)
    ensures (exists k | 1 <= k < |d| :: d[..k] in l.files) ==> r == Err(NotADirectory(d))
    ensures (forall k | 1 <= k < |d| :: d[..k] !in l.files) && |d| > 0 && d in l.files ==> r == Err(FileExists(d))
  {
    if exists k | 1 <= k < |d| :: d[..k] in l.files then Err(NotADirectory(d))
    else if |d| > 0 && d in l.files then
      assert d[..|d|] == d;
      Err(FileExists(d))
    else
      assert forall k | 1 <= k <= |d| :: d[..k] !in l.files by {
        assert d[..|d|] == d;
      }
      Ok(AddDirs(l, d))
  }

  /** `p.write_text(text)` (or `p.open("w")`) in an existing directory:
      writing over a directory raises IsADirectoryError. */
  function WriteText(l: Local, p: Path, text: string): (r: Result<Local>)
    ensures r.Err? <==> p in l.dirs
    ensures r.Err? ==> r.error == NotAFile(p)
    ensures r.Ok? ==>
      && r.value.dirs == l.dirs
      && p in r.value.files && r.value.files[p] == text
      && forall q | q != p :: (q in r.value.files <==> q in l.files) && (q in l.files ==> r.value.files[q] == l.files[q])
  {
    if p in l.dirs then Err(NotAFile(p)) else Ok(l.(files := l.files[p := text]))
  }

  /** What a run of writes did: its result, the filesystem it left, and the
      languages whose TS files it wrote, in order. */
  datatype DiskRun = DiskRun(result: Result<()>, local: Local, written: seq<string>)

  /** The index of the first of `langs` whose TS file is a directory, or
      `|langs|` when there is none. */
  function FirstBlocked(dirs: set<Path>, dir: Path, name: string, langs: seq<string>): (k: nat)
    ensures k <= |langs|
    ensures forall i | 0 <= i < k :: Target(dir, name, langs[i]) !in dirs
    ensures k < |langs| ==> Target(dir, name, langs[k]) in dirs
    decreases |langs|
  {
    if |langs| == 0 || Target(dir, name, langs[0]) in dirs then 0
    else 1 + FirstBlocked(dirs, dir, name, langs[1..])
  }

  /** Making the directory `dir` never makes a directory of a TS file inside it. */
  lemma {:induction false} FirstBlockedAfterMkdir(dirs: set<Path>, dir: Path, name: string, langs: seq<string>)
    ensures FirstBlocked(dirs + Ancestors(dir), dir, name, langs) == FirstBlocked(dirs, dir, name, langs)
    decreases |langs|
  {
    if |langs| > 0 {
      assert Target(dir, name, langs[0]) !in Ancestors(dir) by {
        forall k | 1 <= k <= |dir| ensures dir[..k] != Target(dir, name, langs[0]) {
          assert |dir[..k]| < |Target(dir, name, langs[0])|;
        }
      }
      FirstBlockedAfterMkdir(dirs, dir, name, langs[1..]);
    }
  }

  /** The disk side of a pull fails: the i18n directory cannot be made, or
      one of the TS files to write is a directory. */
  predicate DiskBlocked(l: Local, dir: Path, name: string, langs: seq<string>)
  {
    Blocked(l, dir) || exists i | 0 <= i < |langs| :: Target(dir, name, langs[i]) in l.dirs
  }

  /* ---------------------------------------------------------------------- */
  /* Pull                                                                   */
  /* ---------------------------------------------------------------------- */

  /** The codes of a project's languages. */
  function Codes(langs: seq<Language>): set<string>
  {
    set i | 0 <= i < |langs| :: langs[i].code
  }

  /** Some statistics entry for `code` reaches `min` percent. */
  predicate Reaches(stats: seq<LanguageStat>, code: string, min: real)
  {
    exists i | 0 <= i < |stats| :: stats[i].code == code && stats[i].ratio >= min
  }

  /** A language `Translation.pull` fetches: a project language, among the
      selected ones when there are any, and translated at least to the
      threshold when one is set. */
  predicate Eligible(t: Translation, proj: Project, selected: seq<string>, lang: string)
  {
    && lang in Codes(proj.languages)
    && (|selected| == 0 || lang in selected)
    && (t.minimumTr.Some? ==> Reaches(LanguageStats(proj, t.tsName), lang, t.minimumTr.value))
  }

  /** The project languages narrowed to the selection, when there is one. */
  function Chosen(proj: Project, selected: seq<string>): (r: set<string>)
    ensures forall lang :: lang in r <==> lang in Codes(proj.languages) && (|selected| == 0 || lang in selected)
  {
    if |selected| == 0 then Codes(proj.languages) else Codes(proj.languages) * (set l | l in selected)
  }

  /** The set of languages `Translation.pull` keeps. */
  function PullSet(t: Translation, proj: Project, selected: seq<string>): (r: set<string>)
    ensures forall lang :: lang in r <==> Eligible(t, proj, selected, lang)
  {
    var chosen := Chosen(proj, selected);
    if t.minimumTr.None? then chosen
    else
      var stats := LanguageStats(proj, t.tsName);
      set i | 0 <= i < |stats| && stats[i].code in chosen && stats[i].ratio >= t.minimumTr.value :: stats[i].code
  }

  /** The languages `Translation.pull` downloads, in the order it downloads them. */
  function PullLanguages(t: Translation, proj: Project, selected: seq<string>): (r: seq<string>)
    ensures Increasing(r)
    ensures forall lang :: lang in r <==> Eligible(t, proj, selected, lang)
  {
    SortSet(PullSet(t, proj, selected))
  }

  /** Writes the downloaded text of each of `langs` to its TS file, in order,
      stopping at the first TS file that is a directory. */
  function DownloadAll(l: Local, res: Resource, dir: Path, name: string, langs: seq<string>): (r: DiskRun)
    requires Increasing(langs)
    ensures r.written == langs[..FirstBlocked(l.dirs, dir, name, langs)]
    ensures r.result.Ok? <==> |r.written| == |langs|
    ensures r.result.Err? ==> r.result.error == NotAFile(Target(dir, name, langs[|r.written|]))
    ensures r.local.dirs == l.dirs
    ensures WroteTexts(l.files, r.local.files, res, dir, name, r.written)
    decreases |langs|
  {
    if |langs| == 0 then DiskRun(Ok(()), l, [])
    else
      var first := Target(dir, name, langs[0]);
      match WriteText(l, first, DownloadText(res, langs[0]))
      case Err(e) => DiskRun(Err(e), l, [])
      case Ok(l1) =>
        var rest := DownloadAll(l1, res, dir, name, langs[1..]);
        var written := [langs[0]] + rest.written;
        DownloadStep(dir, name, langs, rest.written);
        WroteTextsStep(l, l1, rest.local, res, dir, name, langs[0], rest.written);
        DiskRun(rest.result, rest.local, written)
  }

  /** One step of `DownloadAll`: the first language's TS file is none of the
      later ones, so writing the later ones leaves it alone. */
  lemma DownloadStep(dir: Path, name: string, langs: seq<string>, rest: seq<string>)
    requires Increasing(langs) && |langs| > 0
    requires |rest| <= |langs| - 1 && rest == langs[1..][..|rest|]
    ensures [langs[0]] + rest == langs[..|rest| + 1]
    ensures !IsTarget(Target(dir, name, langs[0]), dir, name, rest)
    ensures forall p | !IsTarget(p, dir, name, [langs[0]] + rest) ::
      !IsTarget(p, dir, name, rest) && p != Target(dir, name, langs[0])
  {
    var first := Target(dir, name, langs[0]);
    var written := [langs[0]] + rest;
    forall i | 0 <= i < |rest| ensures first != Target(dir, name, rest[i]) {
      assert rest[i] == langs[i + 1];
      BelowIrreflexive(langs[0]);
      assert Below(langs[0], langs[i + 1]);
      TargetDistinct(dir, name, langs[0], langs[i + 1]);
    }
    forall p | !IsTarget(p, dir, name, written)
      ensures !IsTarget(p, dir, name, rest) && p != first
    {
      assert p != Target(dir, name, written[0]);
      forall i | 0 <= i < |rest| ensures p != Target(dir, name, rest[i]) {
        assert rest[i] == written[i + 1];
      }
    }
  }

  /** Each of `langs` has its TS file holding its downloaded text, and every
      other file is as it was. */
  ghost predicate WroteTexts(before: map<Path, string>, after: map<Path, string>, res: Resource, dir: Path, name: string, langs: seq<string>)
  {
    && (forall i | 0 <= i < |langs| ::
          Target(dir, name, langs[i]) in after
          && after[Target(dir, name, langs[i])] == DownloadText(res, langs[i]))
    && (forall p | !IsTarget(p, dir, name, langs) ::
          (p in after <==> p in before) && (p in before ==> after[p] == before[p]))
  }

  /** Writing one TS file and then the others writes them all. */
  lemma WroteTextsStep(l: Local, l1: Local, after: Local, res: Resource, dir: Path, name: string, first: string, rest: seq<string>)
    requires WriteText(l, Target(dir, name, first), DownloadText(res, first)) == Ok(l1)
    requires WroteTexts(l1.files, after.files, res, dir, name, rest)
    requires !IsTarget(Target(dir, name, first), dir, name, rest)
    requires forall p | !IsTarget(p, dir, name, [first] + rest) :: !IsTarget(p, dir, name, rest) && p != Target(dir, name, first)
    ensures WroteTexts(l.files, after.files, res, dir, name, [first] + rest)
  {
    var all := [first] + rest;
    forall i | 0 <= i < |all|
      ensures Target(dir, name, all[i]) in after.files && after.files[Target(dir, name, all[i])] == DownloadText(res, all[i])
    {
      if i > 0 { assert all[i] == rest[i - 1]; }
    }
  }

  predicate IsTarget(p: Path, dir: Path, name: string, langs: seq<string>)
  {
    exists i | 0 <= i < |langs| :: p == Target(dir, name, langs[i])
  }

  /** The download calls for `langs`, in order. */
  function Downloads(dir: Path, name: string, langs: seq<string>): (r: seq<Effect>)
    ensures |r| == |langs|
    ensures forall i | 0 <= i < |langs| :: r[i] == Downloaded(langs[i], Target(dir, name, langs[i]))
  {
    seq(|langs|, i requires 0 <= i < |langs| => Downloaded(langs[i], Target(dir, name, langs[i])))
  }

  /** What a pull leaves on disk: the i18n directory exists, each pulled
      language's TS file holds its downloaded text, every other file is as it was. */
  ghost predicate PulledFiles(before: Local, after: Local, res: Resource, dir: Path, name: string, langs: seq<string>)
  {
    && after.dirs == before.dirs + Ancestors(dir)
    && WroteTexts(before.files, after.files, res, dir, name, langs)
  }

  /** The trace makes the directory first and then downloads `langs` in order,
      with only reads before the directory is made. */
  predicate DownloadsAfterDirs(trace: seq<Effect>, dir: Path, name: string, langs: seq<string>)
  {
    exists k | 0 <= k < |trace| ::
      && trace[k] == DirsMade(dir)
      && (forall j | 0 <= j < k :: trace[j].ReadOnly())
      && trace[k + 1..] == Downloads(dir, name, langs)
  }

  /** The disk side of a pull: make the i18n directory, then download each
      language, stopping at the first failure. */
  function PullDisk(l: Local, res: Resource, dir: Path, name: string, langs: seq<string>): (r: DiskRun)
    requires Increasing(langs)
    ensures r.result.Ok? <==> !DiskBlocked(l, dir, name, langs)
    ensures Blocked(l, dir) ==> r == DiskRun(Err(MakeDirs(l, dir).error), l, [])
    ensures !Blocked(l, dir) ==> DownloadedUpTo(l, r, res, dir, name, langs)
  {
    DiskBlockedFirst(l, dir, name, langs);
    match MakeDirs(l, dir)
    case Err(e) => DiskRun(Err(e), l, [])
    case Ok(created) =>
      DownloadsAfterMkdir(l, res, dir, name, langs);
      DownloadAll(created, res, dir, name, langs)
  }

  /** A run of writes after the i18n directory was made: the languages before
      the first one whose TS file is a directory are written, and that one,
      if any, is the error. */
  ghost predicate DownloadedUpTo(l: Local, r: DiskRun, res: Resource, dir: Path, name: string, langs: seq<string>)
  {
    var k := FirstBlocked(l.dirs, dir, name, langs);
    && r.written == langs[..k]
    && PulledFiles(l, r.local, res, dir, name, r.written)
    && (k < |langs| ==> r.result == Err(NotAFile(Target(dir, name, langs[k]))))
  }

  /** Downloading into the freshly made i18n directory stops where the TS
      files of the original filesystem first get in the way. */
  lemma DownloadsAfterMkdir(l: Local, res: Resource, dir: Path, name: string, langs: seq<string>)
    requires Increasing(langs)
    requires !Blocked(l, dir)
    ensures var r := DownloadAll(AddDirs(l, dir), res, dir, name, langs);
      && DownloadedUpTo(l, r, res, dir, name, langs)
      && (r.result.Ok? <==> FirstBlocked(l.dirs, dir, name, langs) == |langs|)
  {
    var created := AddDirs(l, dir);
    FirstBlockedAfterMkdir(l.dirs, dir, name, langs);
    assert created.files == l.files && created.dirs == l.dirs + Ancestors(dir);
    var k := FirstBlocked(l.dirs, dir, name, langs);
    assert FirstBlocked(created.dirs, dir, name, langs) == k;
    var r := DownloadAll(created, res, dir, name, langs);
    assert r.written == langs[..k] && |r.written| == k;
    assert r.local.dirs == l.dirs + Ancestors(dir);
    assert WroteTexts(l.files, r.local.files, res, dir, name, r.written);
  }

  /** The disk side of a pull is blocked exactly when the directory cannot be
      made or some TS file, the first such one included, is a directory. */
  lemma DiskBlockedFirst(l: Local, dir: Path, name: string, langs: seq<string>)
    ensures DiskBlocked(l, dir, name, langs) <==> Blocked(l, dir) || FirstBlocked(l.dirs, dir, name, langs) < |langs|
  {
    var k := FirstBlocked(l.dirs, dir, name, langs);
    if k < |langs| {
      assert Target(dir, name, langs[k]) in l.dirs;
    }
  }

  /** Writing the downloaded texts again over files that already hold them changes no file. */
  lemma RewriteUnchanged(before: Local, after: Local, res: Resource, dir: Path, name: string, langs: seq<string>)
    requires PulledFiles(before, after, res, dir, name, langs)
    requires forall i | 0 <= i < |langs| ::
      Target(dir, name, langs[i]) in before.files && before.files[Target(dir, name, langs[i])] == DownloadText(res, langs[i])
    ensures after.files == before.files
  {
    forall p | p in after.files
      ensures p in before.files && after.files[p] == before.files[p]
    {
      if IsTarget(p, dir, name, langs) {
        var i :| 0 <= i < |langs| && p == Target(dir, name, langs[i]);
      }
    }
    forall p | p in before.files ensures p in after.files {
      if IsTarget(p, dir, name, langs) {
        var i :| 0 <= i < |langs| && p == Target(dir, name, langs[i]);
      }
    }
  }

  /** TS files written inside `dir` never block making `dir` again. */
  lemma TargetsDoNotBlock(before: Local, after: Local, res: Resource, dir: Path, name: string, langs: seq<string>)
    requires PulledFiles(before, after, res, dir, name, langs)
    requires !Blocked(before, dir)
    ensures !Blocked(after, dir)
  {
    forall k | 1 <= k <= |dir| ensures dir[..k] !in after.files {
      assert !IsTarget(dir[..k], dir, name, langs) by {
        forall i | 0 <= i < |langs| ensures dir[..k] != Target(dir, name, langs[i]) {
          assert |dir[..k]| == k;
        }
      }
    }
  }

  /** Repeating the disk side of a pull changes nothing more. */
  lemma PullDiskIdempotent(l: Local, res: Resource, dir: Path, name: string, langs: seq<string>)
    requires Increasing(langs)
    ensures PullDisk(PullDisk(l, res, dir, name, langs).local, res, dir, name, langs).local == PullDisk(l, res, dir, name, langs).local
  {
    var r1 := PullDisk(l, res, dir, name, langs);
    if !Blocked(l, dir) {
      var l1 := r1.local;
      TargetsDoNotBlock(l, l1, res, dir, name, r1.written);
      FirstBlockedAfterMkdir(l.dirs, dir, name, langs);
      var r2 := PullDisk(l1, res, dir, name, langs);
      assert r2.written == r1.written;
      assert r2.local.dirs == l1.dirs;
      RewriteUnchanged(l1, r2.local, res, dir, name, r1.written);
    }
  }

  /** The calls of a pull that found its resource: the lookups, then, once
      the directory is made, the downloads of the languages written. */
  function PullTrace(lookups: seq<Effect>, dir: Path, name: string, langs: seq<string>): (r: seq<Effect>)
    requires forall j | 0 <= j < |lookups| :: lookups[j].ReadOnly()
    ensures DownloadsAfterDirs(r, dir, name, langs)
  {
    var r := lookups + [DirsMade(dir)] + Downloads(dir, name, langs);
    assert r[|lookups|] == DirsMade(dir) && r[|lookups| + 1..] == Downloads(dir, name, langs);
    r
  }

  /** The reads a pull makes before touching the disk: the resource, the
      project's languages, and the statistics when a threshold is set. */
  function PullLookups(name: string, withStats: bool): (r: seq<Effect>)
    ensures forall j | 0 <= j < |r| :: r[j].ReadOnly()
    ensures FetchStats(name) in r <==> withStats
  {
    if withStats then [FetchResource(name), FetchLanguages, FetchStats(name)] else [FetchResource(name), FetchLanguages]
  }

  /** The calls of a pull whose disk side ran as `run` did. */
  function DiskCalls(lookups: seq<Effect>, l: Local, dir: Path, name: string, run: DiskRun): (r: seq<Effect>)
    requires forall j | 0 <= j < |lookups| :: lookups[j].ReadOnly()
    ensures Blocked(l, dir) ==> r == lookups
    ensures !Blocked(l, dir) ==> DownloadsAfterDirs(r, dir, name, run.written)
  {
    if Blocked(l, dir) then lookups else PullTrace(lookups, dir, name, run.written)
  }

  /** `Translation.pull(selected_languages)`. */
  function Pull(t: Translation, w: World, selected: seq<string>): (o: Outcome<()>)
    requires Bound(t, w.remote)
    ensures o.world.remote == w.remote
    ensures t.tsName !in w.remote.orgs[t.org][t.project].resources ==>
      o == Outcome(Err(ResourceNotFound(t.tsName)), w, [FetchResource(t.tsName)])
    ensures
      var proj := w.remote.orgs[t.org][t.project];
      var langs := PullLanguages(t, proj, selected);
      var dir := I18nDir(t.pluginPath);
      t.tsName in proj.resources ==>
        && (o.result.Ok? <==> !DiskBlocked(w.local, dir, t.tsName, langs))
        && (Blocked(w.local, dir) ==>
              && o.result == Err(MakeDirs(w.local, dir).error) && o.world == w
              && forall j | 0 <= j < |o.trace| :: o.trace[j].ReadOnly())
        && (!Blocked(w.local, dir) ==>
              var k := FirstBlocked(w.local.dirs, dir, t.tsName, langs);
              && PulledFiles(w.local, o.world.local, proj.resources[t.tsName], dir, t.tsName, langs[..k])
              && DownloadsAfterDirs(o.trace, dir, t.tsName, langs[..k])
              && (k < |langs| ==> o.result == Err(NotAFile(Target(dir, t.tsName, langs[k])))))
    ensures o.result.Ok? ==>
      var proj := w.remote.orgs[t.org][t.project];
      var langs := PullLanguages(t, proj, selected);
      && PulledFiles(w.local, o.world.local, proj.resources[t.tsName], I18nDir(t.pluginPath), t.tsName, langs)
      && DownloadsAfterDirs(o.trace, I18nDir(t.pluginPath), t.tsName, langs)
  {
    var proj := w.remote.orgs[t.org][t.project];
    if t.tsName !in proj.resources then Outcome(Err(ResourceNotFound(t.tsName)), w, [FetchResource(t.tsName)])
    else
      var langs := PullLanguages(t, proj, selected);
      var dir := I18nDir(t.pluginPath);
      var lookups := PullLookups(t.tsName, t.minimumTr.Some?);
      var run := PullDisk(w.local, proj.resources[t.tsName], dir, t.tsName, langs);
      assert run.result.Ok? ==> langs[..|langs|] == langs;
      Outcome(run.result, w.(local := run.local), DiskCalls(lookups, w.local, dir, t.tsName, run))
  }

  /** Pulling twice leaves the same world as pulling once. */
  lemma PullIdempotent(t: Translation, w: World, selected: seq<string>)
    requires Bound(t, w.remote)
    ensures Bound(t, Pull(t, w, selected).world.remote)
    ensures Pull(t, Pull(t, w, selected).world, selected).world == Pull(t, w, selected).world
  {
    var proj := w.remote.orgs[t.org][t.project];
    if t.tsName in proj.resources {
      PullDiskIdempotent(w.local, proj.resources[t.tsName], I18nDir(t.pluginPath), t.tsName, PullLanguages(t, proj, selected));
    }
  }

  /** Raising the threshold never pulls a language a lower threshold would not. */
  lemma {:induction false} ThresholdMonotone(t: Translation, proj: Project, selected: seq<string>, low: real, high: real)
    requires low <= high
    ensures forall lang | lang in PullLanguages(t.(minimumTr := Some(high)), proj, selected) ::
      lang in PullLanguages(t.(minimumTr := Some(low)), proj, selected)
  {
    var stats := LanguageStats(proj, t.tsName);
    forall lang | lang in PullLanguages(t.(minimumTr := Some(high)), proj, selected)
      ensures lang in PullLanguages(t.(minimumTr := Some(low)), proj, selected)
    {
      assert Eligible(t.(minimumTr := Some(high)), proj, selected, lang);
      var i :| 0 <= i < |stats| && stats[i].code == lang && stats[i].ratio >= high;
      assert Eligible(t.(minimumTr := Some(low)), proj, selected, lang);
    }
  }

  /* ---------------------------------------------------------------------- */
  /* Push                                                                   */
  /* ---------------------------------------------------------------------- */

  /** `after` differs from `before` only in the resources of the translation's
      project: the catalog, every other organization and project, and every
      other field of that project are as they were. */
  ghost predicate OnlyResourcesChanged(t: Translation, before: Remote, after: Remote)
    requires Bound(t, before)
  {
    && after.catalog == before.catalog
    && after.orgs.Keys == before.orgs.Keys
    && after.orgs[t.org].Keys == before.orgs[t.org].Keys
    && after.orgs[t.org][t.project] == before.orgs[t.org][t.project].(resources := after.orgs[t.org][t.project].resources)
    && forall o, s | o in before.orgs && s in before.orgs[o] && (o, s) != (t.org, t.project) ::
         o in after.orgs && s in after.orgs[o] && after.orgs[o][s] == before.orgs[o][s]
  }

  /** The first half of `Translation.push()`: fetch the resource, creating it when missing. */
  function EnsureResource(t: Translation, remote: Remote): (r: Remote)
    requires Bound(t, remote)
    ensures Bound(t, r) && t.tsName in r.orgs[t.org][t.project].resources
    ensures t.tsName in remote.orgs[t.org][t.project].resources ==> r == remote
    ensures NothingDeleted(remote, r)
    ensures forall s | s in remote.orgs[t.org][t.project].resources ::
      s in r.orgs[t.org][t.project].resources
      && r.orgs[t.org][t.project].resources[s] == remote.orgs[t.org][t.project].resources[s]
  {
    if t.tsName in remote.orgs[t.org][t.project].resources then remote
    else CreateResource(remote, t.org, t.project, t.tsName).remote
  }

  /** Fetching or creating the resource changes nothing else on the service,
      and a created resource is an empty one in the QT format. */
  lemma EnsureResourceFrame(t: Translation, remote: Remote)
    requires Bound(t, remote)
    ensures OnlyResourcesChanged(t, remote, EnsureResource(t, remote))
    ensures t.tsName !in remote.orgs[t.org][t.project].resources ==>
      EnsureResource(t, remote).orgs[t.org][t.project].resources[t.tsName] == Resource(t.tsName, t.tsName, QtFormat, "", [], map[])
  {
  }

  /** The calls of that first half. */
  function EnsureCalls(t: Translation, remote: Remote): (r: seq<Effect>)
    requires Bound(t, remote)
    ensures ResourceCreated(t.tsName) in r <==> t.tsName !in remote.orgs[t.org][t.project].resources
    ensures forall i | 0 <= i < |r| :: !r[i].Uploaded? && !r[i].Ran?
  {
    if t.tsName in remote.orgs[t.org][t.project].resources then [FetchResource(t.tsName)]
    else [FetchResource(t.tsName), ResourceCreated(t.tsName)]
  }

  /** `Translation.push()`. */
  function Push(t: Translation, w: World): (o: Outcome<()>)
    requires Bound(t, w.remote)
    ensures !w.local.Exists(t.tsPath) ==> o == Outcome(Err(SourceFileMissing(t.tsPath)), w, [])
    ensures o.world.local == w.local
    ensures Bound(t, o.world.remote) && NothingDeleted(w.remote, o.world.remote)
    ensures o.result.Ok? <==> t.tsPath in w.local.files
    ensures w.local.Exists(t.tsPath) ==>
      && t.tsName in o.world.remote.orgs[t.org][t.project].resources
      && (ResourceCreated(t.tsName) in o.trace <==> t.tsName !in w.remote.orgs[t.org][t.project].resources)
    ensures t.tsPath in w.local.files ==>
      && |o.trace| >= 1
      && o.trace[|o.trace| - 1] == Uploaded(t.tsName, w.local.files[t.tsPath])
      && (forall i | 0 <= i < |o.trace| - 1 :: !o.trace[i].Uploaded?)
      && o.world.remote.orgs[t.org][t.project].resources[t.tsName].content == w.local.files[t.tsPath]
    ensures w.local.Exists(t.tsPath) && t.tsPath !in w.local.files ==>
      o.result == Err(NotAFile(t.tsPath)) && forall i | 0 <= i < |o.trace| :: !o.trace[i].Uploaded?
    ensures forall s | s in w.remote.orgs[t.org][t.project].resources && s != t.tsName ::
      o.world.remote.orgs[t.org][t.project].resources[s] == w.remote.orgs[t.org][t.project].resources[s]
  {
    if !w.local.Exists(t.tsPath) then Outcome(Err(SourceFileMissing(t.tsPath)), w, [])
    else
      var remote := EnsureResource(t, w.remote);
      var calls := EnsureCalls(t, w.remote);
      if t.tsPath !in w.local.files then Outcome(Err(NotAFile(t.tsPath)), w.(remote := remote), calls)
      else
        var text := w.local.files[t.tsPath];
        var uploaded := Upload(remote, t.org, t.project, t.tsName, text);
        UploadKeeps(t, remote, text);
        Outcome(Ok(()), w.(remote := uploaded), calls + [Uploaded(t.tsName, text)])
  }

  /** What `Translation.push()` leaves alone: apart from the bound resource,
      nothing on the service changes, and of that resource only the source
      text; a resource it had to create holds the QT format, no statistics,
      no translations and the uploaded text. */
  lemma PushFrame(t: Translation, w: World)
    requires Bound(t, w.remote)
    ensures var after := Push(t, w).world.remote;
      var res := w.remote.orgs[t.org][t.project].resources;
      && Bound(t, after)
      && OnlyResourcesChanged(t, w.remote, after)
      && (t.tsName in res ==>
            after.orgs[t.org][t.project].resources[t.tsName]
            == res[t.tsName].(content := after.orgs[t.org][t.project].resources[t.tsName].content))
      && (t.tsPath in w.local.files && t.tsName !in res ==>
            after.orgs[t.org][t.project].resources[t.tsName]
            == Resource(t.tsName, t.tsName, QtFormat, w.local.files[t.tsPath], [], map[]))
  {
    if w.local.Exists(t.tsPath) && t.tsPath in w.local.files {
      var remote := EnsureResource(t, w.remote);
      EnsureResourceFrame(t, w.remote);
      var text := w.local.files[t.tsPath];
      var after := Upload(remote, t.org, t.project, t.tsName, text);
      assert Push(t, w).world.remote == after;
      assert OnlyResourcesChanged(t, remote, after);
    }
  }

  /** An upload of the bound resource deletes nothing. */
  lemma UploadKeeps(t: Translation, before: Remote, text: string)
    requires Bound(t, before) && t.tsName in before.orgs[t.org][t.project].resources
    ensures NothingDeleted(before, Upload(before, t.org, t.project, t.tsName, text))
  {
  }

  /* ---------------------------------------------------------------------- */
  /* Update and compile                                                     */
  /* ---------------------------------------------------------------------- */

  /** Text made of `lines`, each ended by a newline. */
  function Lines(lines: seq<string>): string
    decreases |lines|
  {
    if |lines| == 0 then "" else lines[0] + "\n" + Lines(lines[1..])
  }

  /** Newline-ended lines are the lines joined by newlines, plus an empty last piece. */
  lemma {:induction false} LinesJoin(lines: seq<string>)
    ensures Lines(lines) == Join(lines + [""], '\n')
    decreases |lines|
  {
    if |lines| > 0 {
      LinesJoin(lines[1..]);
      assert (lines + [""])[1..] == lines[1..] + [""];
    }
  }

  /** The lines of the qmake project file handed to pylupdate5. */
  function ProLines(py: seq<string>, ui: seq<string>, ts: Path): seq<string>
  {
    ["CODECFORTR = UTF-8", "SOURCES = " + Join(py, ' '), "FORMS = " + Join(ui, ' '), "TRANSLATIONS = " + Render(ts)]
  }

  /** The qmake project file handed to pylupdate5. */
  function ProContents(py: seq<string>, ui: seq<string>, ts: Path): string
  {
    Lines(ProLines(py, ui, ts))
  }

  lemma {:induction false} JoinAvoids(parts: seq<string>, sep: char, c: char)
    requires c != sep
    requires forall i | 0 <= i < |parts| :: c !in parts[i]
    ensures c !in Join(parts, sep)
    decreases |parts|
  {
    if |parts| > 1 {
      JoinAvoids(parts[1..], sep, c);
    }
  }

  /** Read back line by line, the project file holds the codec, the sources,
      the forms and the TS file, and the source and form lists split back
      into the globbed paths. */
  lemma ProFileLines(py: seq<string>, ui: seq<string>, ts: Path)
    requires forall i | 0 <= i < |py| :: '\n' !in py[i] && ' ' !in py[i]
    requires forall i | 0 <= i < |ui| :: '\n' !in ui[i] && ' ' !in ui[i]
    requires '\n' !in Render(ts)
    ensures Split(ProContents(py, ui, ts), '\n') ==
      ["CODECFORTR = UTF-8", "SOURCES = " + Join(py, ' '), "FORMS = " + Join(ui, ' '), "TRANSLATIONS = " + Render(ts), ""]
    ensures |py| >= 1 ==> Split(Join(py, ' '), ' ') == py
    ensures |ui| >= 1 ==> Split(Join(ui, ' '), ' ') == ui
  {
    var lines := ProLines(py, ui, ts) + [""];
    JoinAvoids(py, ' ', '\n');
    JoinAvoids(ui, ' ', '\n');
    LinesJoin(ProLines(py, ui, ts));
    assert forall i | 0 <= i < |lines| :: '\n' !in lines[i];
    SplitJoin(lines, '\n');
    if |py| >= 1 { SplitJoin(py, ' '); }
    if |ui| >= 1 { SplitJoin(ui, ' '); }
  }

  /** The source and form lists are joined with plain spaces and nothing
      quotes a path, so a globbed path holding a space does not survive a
      split of its line: it reads back as more than one entry. */
  lemma SpacedPathMisread(paths: seq<string>, k: nat)
    requires k < |paths| && ' ' in paths[k]
    ensures Split(Join(paths, ' '), ' ') != paths
  {
    SplitParts(Join(paths, ' '), ' ');
  }

  /** The qmake project file `update_strings` writes. */
  function ProjectFile(p: Parameters): Path
  {
    Child(PluginPath(p), p.project + ".pro")
  }

  /** The pylupdate5 command line. */
  function UpdateCommand(p: Parameters): (argv: seq<string>)
  {
    [Render(p.pylupdate5), "-noobsolete", "-verbose", Render(ProjectFile(p))]
  }

  /** The project file's text: the `.py` and `.ui` files below the plugin
      directory, found once the i18n directory exists, and the TS file. */
  function ProText(p: Parameters, l: Local): string
  {
    var created := AddDirs(l, I18nDir(PluginPath(p)));
    ProContents(GlobDeep(created, PluginPath(p), ".py"), GlobDeep(created, PluginPath(p), ".ui"), TranslationFilePath(p))
  }

  /** The project file is never one of the directories the i18n directory brings. */
  lemma ProjectFileOutsideI18n(p: Parameters)
    ensures ProjectFile(p) !in Ancestors(I18nDir(PluginPath(p)))
  {
    var dir := I18nDir(PluginPath(p));
    var name := p.project + ".pro";
    assert name != "i18n" by {
      if |p.project| == 0 { assert name[0] == '.'; } else { assert |name| > 4; }
    }
    forall k | 1 <= k <= |dir| ensures dir[..k] != ProjectFile(p) {
      if k == |dir| {
        assert dir[..k][k - 1] == "i18n";
        assert ProjectFile(p)[k - 1] == name;
      }
    }
  }

  /** `update_strings` gets as far as running pylupdate5: the i18n directory
      can be made and the project file is not a directory. */
  predicate UpdateRuns(p: Parameters, l: Local)
  {
    !Blocked(l, I18nDir(PluginPath(p))) && ProjectFile(p) !in l.dirs
  }

  /** The filesystem once pylupdate5 has run: the i18n directory exists, the
      project file holds its text unless the tool rewrote it, the tool's
      writes are in place, and every other file is as it was. */
  ghost predicate Updated(p: Parameters, before: Local, after: Local, tool: ToolRun)
  {
    && ProjectFile(p) in after.files
    && after.files[ProjectFile(p)] ==
         (if ProjectFile(p) in tool.writes then tool.writes[ProjectFile(p)] else ProText(p, before))
    && after.dirs == before.dirs + Ancestors(I18nDir(PluginPath(p)))
    && (forall q | q in tool.writes :: q in after.files && after.files[q] == tool.writes[q])
    && (forall q | q != ProjectFile(p) && q !in tool.writes ::
          (q in after.files <==> q in before.files) && (q in before.files ==> after.files[q] == before.files[q]))
  }

  /** `Translation.update_strings(parameters)`, with `tool` standing for what pylupdate5 does. */
  function UpdateStrings(p: Parameters, w: World, tool: ToolRun): (o: Outcome<()>)
    ensures o.world.remote == w.remote
    ensures o.trace == UpdateCalls(p, w.local)
    ensures Blocked(w.local, I18nDir(PluginPath(p))) ==>
      o.result == Err(MakeDirs(w.local, I18nDir(PluginPath(p))).error) && o.world == w
    ensures !Blocked(w.local, I18nDir(PluginPath(p))) && ProjectFile(p) in w.local.dirs ==>
      && o.result == Err(NotAFile(ProjectFile(p)))
      && o.world.local.files == w.local.files
      && o.world.local.dirs == w.local.dirs + Ancestors(I18nDir(PluginPath(p)))
    ensures UpdateRuns(p, w.local) ==>
      && Updated(p, w.local, o.world.local, tool)
      && (tool.code != 0 ==> o.result == Err(ToolFailed("pylupdate5", tool.code, tool.stdout, tool.stderr)))
      && (tool.code == 0 ==> (o.result.Ok? <==> o.world.local.Exists(TranslationFilePath(p))))
      && (tool.code == 0 && o.result.Err? ==> o.result.error == SourceFileNotCreated(TranslationFilePath(p)))
  {
    match MakeDirs(w.local, I18nDir(PluginPath(p)))
    case Err(e) => Outcome(Err(e), w, [])
    case Ok(created) => WriteProject(p, w, created, tool)
  }

  /** The calls `update_strings` makes: none when the i18n directory cannot be
      made; the directory alone when the project file is a directory;
      otherwise the directory, the project file and the pylupdate5 run. */
  function UpdateCalls(p: Parameters, l: Local): (r: seq<Effect>)
    ensures |r| == 3 <==> UpdateRuns(p, l)
    ensures |r| == 3 ==> r[2] == Ran(UpdateCommand(p)) && r[1].FileWritten?
    ensures |r| <= 3 && forall i | 0 <= i < |r| && i < 2 :: r[i].DirsMade? || r[i].FileWritten?
    ensures |r| == 0 <==> Blocked(l, I18nDir(PluginPath(p)))
    ensures |r| > 0 ==> r[0] == DirsMade(I18nDir(PluginPath(p)))
  {
    var dir := I18nDir(PluginPath(p));
    if Blocked(l, dir) then []
    else if ProjectFile(p) in l.dirs then [DirsMade(dir)]
    else [DirsMade(dir), FileWritten(ProjectFile(p), ProText(p, l)), Ran(UpdateCommand(p))]
  }

  /** pylupdate5 runs exactly when the i18n directory can be made and the
      project file is not a directory. */
  lemma UpdateRunsTool(p: Parameters, l: Local)
    ensures Ran(UpdateCommand(p)) in UpdateCalls(p, l) <==> UpdateRuns(p, l)
  {
    var r := UpdateCalls(p, l);
    if Ran(UpdateCommand(p)) in r {
      var i :| 0 <= i < |r| && r[i] == Ran(UpdateCommand(p));
      assert i == 2;
    }
    if UpdateRuns(p, l) {
      assert r[2] == Ran(UpdateCommand(p));
    }
  }

  /** `update_strings` once the i18n directory is made: open the project file
      for writing, then run pylupdate5. */
  function WriteProject(p: Parameters, w: World, created: Local, tool: ToolRun): (o: Outcome<()>)
    requires created == AddDirs(w.local, I18nDir(PluginPath(p)))
    requires !Blocked(w.local, I18nDir(PluginPath(p)))
    ensures o.world.remote == w.remote
    ensures o.trace == UpdateCalls(p, w.local)
    ensures ProjectFile(p) in w.local.dirs ==>
      o.result == Err(NotAFile(ProjectFile(p))) && o.world == w.(local := created)
    ensures ProjectFile(p) !in w.local.dirs ==>
      && Updated(p, w.local, o.world.local, tool)
      && (tool.code != 0 ==> o.result == Err(ToolFailed("pylupdate5", tool.code, tool.stdout, tool.stderr)))
      && (tool.code == 0 ==> (o.result.Ok? <==> o.world.local.Exists(TranslationFilePath(p))))
      && (tool.code == 0 && o.result.Err? ==> o.result.error == SourceFileNotCreated(TranslationFilePath(p)))
  {
    var text := ProText(p, w.local);
    ProjectFileOutsideI18n(p);
    match WriteText(created, ProjectFile(p), text)
    case Err(e) => Outcome(Err(e), w.(local := created), [DirsMade(I18nDir(PluginPath(p)))])
    case Ok(written) => RunUpdate(p, w, written, text, tool)
  }

  /** The end of `update_strings`, once the project file holds `text`: run
      pylupdate5 and check that the TS file now exists. */
  function RunUpdate(p: Parameters, w: World, written: Local, text: string, tool: ToolRun): (o: Outcome<()>)
    ensures o.world == w.(local := WriteAll(written, tool.writes))
    ensures o.trace == [DirsMade(I18nDir(PluginPath(p))), FileWritten(ProjectFile(p), text), Ran(UpdateCommand(p))]
    ensures tool.code != 0 ==> o.result == Err(ToolFailed("pylupdate5", tool.code, tool.stdout, tool.stderr))
    ensures tool.code == 0 ==> (o.result.Ok? <==> o.world.local.Exists(TranslationFilePath(p)))
    ensures tool.code == 0 && o.result.Err? ==> o.result.error == SourceFileNotCreated(TranslationFilePath(p))
  {
    var ts := TranslationFilePath(p);
    var after := WriteAll(written, tool.writes);
    var trace := [DirsMade(I18nDir(PluginPath(p))), FileWritten(ProjectFile(p), text), Ran(UpdateCommand(p))];
    var result: Result<()> :=
      if tool.code != 0 then Err(ToolFailed("pylupdate5", tool.code, tool.stdout, tool.stderr))
      else if !after.Exists(ts) then Err(SourceFileNotCreated(ts))
      else Ok(());
    Outcome(result, w.(local := after), trace)
  }

  /** The lrelease command line: the tool, then every TS file of the i18n directory. */
  function CompileCommandLine(p: Parameters, files: seq<string>): seq<string>
  {
    [Render(p.lrelease)] + files
  }

  /** `Translation.compile_strings(parameters)`, with `tool` standing for what lrelease does. */
  function CompileStrings(p: Parameters, w: World, tool: ToolRun): (o: Outcome<()>)
    ensures o.world.remote == w.remote
    ensures forall i | 0 <= i < |o.trace| :: o.trace[i].Ran?
    ensures
      var files := GlobChildren(w.local, I18nDir(PluginPath(p)), ".ts");
      && (|files| == 0 ==> o == Outcome(Err(NoTsFiles(I18nDir(PluginPath(p)))), w, []))
      && (|files| > 0 ==>
            && o.trace == [Ran(CompileCommandLine(p, files))]
            && o.world.local == WriteAll(w.local, tool.writes)
            && (o.result.Ok? <==> tool.code == 0)
            && (tool.code != 0 ==> o.result == Err(ToolFailed("lrelease", tool.code, tool.stdout, tool.stderr))))
  {
    var dir := I18nDir(PluginPath(p));
    var files := GlobChildren(w.local, dir, ".ts");
    if |files| == 0 then Outcome(Err(NoTsFiles(dir)), w, [])
    else
      var result: Result<()> :=
        if tool.code != 0 then Err(ToolFailed("lrelease", tool.code, tool.stdout, tool.stderr)) else Ok(());
      Outcome(result, w.(local := WriteAll(w.local, tool.writes)), [Ran(CompileCommandLine(p, files))])
  }

  /** lrelease receives the TS files directly inside the i18n directory, each
      once, in ascending order; compiling fails for want of TS files exactly
      when there is none. */
  lemma CompiledFiles(p: Parameters, w: World, tool: ToolRun)
    ensures
      var dir := I18nDir(PluginPath(p));
      var o := CompileStrings(p, w, tool);
      && (o.result == Err(NoTsFiles(dir)) <==> forall q | w.local.Exists(q) :: !ChildMatch(q, dir, ".ts"))
      && (o.trace != [] ==>
            var argv := o.trace[0].argv;
            && |argv| >= 1 && argv[0] == Render(p.lrelease)
            && Increasing(argv[1..])
            && forall x :: x in argv[1..] <==> exists q | w.local.Exists(q) && ChildMatch(q, dir, ".ts") :: x == Render(q))
  {
    var dir := I18nDir(PluginPath(p));
    var files := GlobChildren(w.local, dir, ".ts");
    if |files| == 0 {
      forall q | w.local.Exists(q) ensures !ChildMatch(q, dir, ".ts") {
        assert Render(q) !in files;
      }
    } else {
      assert CompileCommandLine(p, files)[1..] == files;
      assert files[0] in files;
    }
  }
}
